=== FILE: README.md ===
# Checkers engine: successor generation, evaluation, search and move entry

This project models the playing core of a small Python checkers program:

- `checkers_info.py` supplies the piece markers and the opening board.
- `checkers_ai.py` provides:
  - successor generation: `get_succ`, `copy_simple_state`, `copy_jump_state` and `get_locs`;
  - the static evaluation `game_value`;
  - the depth-6 alpha-beta search `max_value`, `min_value` and `choose_move`.
- `checkers.py` (class `CheckersPlayer`) checks a human's typed move (`validate_move`) and detects a lost game (`check_win`).

The model is written in Dafny and proves properties of it.

| module (file) | what it holds |
|---|---|
| `Pieces` (pieces.dfy) | sides, cells, the turn-to-marker mapping `get_piece` / `get_king` |
| `Grid` (grid.dfy) | the 8x8 grid of cells, cell updates, per-side piece counts, the opening board |
| `Moves` (moves.dfy) | `get_locs`, `copy_simple_state`, `copy_jump_state`, `get_succ` as functions |
| `Legality` (legality.dfy) | an independent statement of the move rules, and proofs that `get_succ` lists exactly the boards they allow |
| `Opening` (opening.dfy) | the moves `get_succ` gives red from the opening board |
| `Evaluation` (evaluation.dfy) | `game_value`, and a per-row reading of it |
| `Search` (search.dfy) | `max_value`, `min_value`, `choose_move` |
| `Player` (player.dfy) | coordinate parsing, `validate_move`, `check_win` |

How the model maps onto the program:

- **Board.** The program's board is a list of display rows that mixes border glyphs with the playable squares `b[1..8][1..8]`. The model keeps only those 64 squares: a `Board` is eight rows of eight `Cell`s, and `At(b, r, c)` is the program's `b[r][c]`.
- **Markers.** The markers `'r'`, `'b'`, `'R'`, `'B'` and `' '` become `Man(Red)`, `Man(Black)`, `King(Red)`, `King(Black)` and `Empty`. `Glyph` maps them back.
- **Turns.** Turn `t` moves the side `SideOf(t)`: red on even turns, black on odd. Red moves towards higher rows (`d = 1`).
- **Mutation.** `copy_simple_state` and `copy_jump_state` append to a shared list `s`. `Jumps` and `Expand` take that list and return the extended one. `deepcopy` and in-place assignment become new immutable boards.
- **Scores.** `game_value` returns `total / 200`, a float. The model returns the integer `total`, so the terminal values 1 and -1 are `Win = 200` and `-Win`. The search's bounds -100 and 100 are `-Inf` and `Inf` (20000). Dividing by 200 preserves every comparison the search makes.
- **Tie-break.** `best_states[randint(0, len(best_states) - 1)]` becomes the parameter `tie: seq<Board> -> nat`, and the search takes the element at index `tie(best) % |best|`.
- **Fail-low answer.** When no child reaches the loop's bound and none ends the game (every `c_a` is below alpha and none is 1 or -1 in `max_value`, or every `c_b` is above beta and none is 1 or -1 in `min_value`), `best_states` stays empty and the function answers the board itself with its own static value (`Search.MaxValueOnePlyStatic`, `Search.MinValueOnePlyStatic`). A child worth 1 or -1 is answered at once, whichever side of the bound it lies on.

Points where the code behaves in a way its names do not suggest; the model follows the code:

- **Threat rows.** Rows 1 and 8 are tested first, as the back row, so the +3/-3 "threat" weight goes to rows 5-7 on even turns (direction +1) and to rows 2-4 on odd turns.
- **Opponent weights.** The opponent's pieces are weighed with the same row test as the mover's, using the mover's turn parity (`Threat`).
- **Constant adjustments.** Of the three adjustments that end `game_value`, two are constant: `num_m == n[0]` always holds, and `num_o < n[1]` never does. They always add 4 - 5 (`GameValueFormula`).
- **No negation.** Every node is evaluated for the side to move at that node, and `max_value` compares the values `min_value` returns without negating them. The depth-6 leaves have the root's turn parity, so they are evaluated for the side to move at the root.
- **Replay crowning.** `validate_move`'s replay crowns any piece that lands on row 1 or 8, including a king moving backwards. `copy_simple_state` crowns only forward steps. The boards still agree, because only kings move backwards and they stay kings (`StepReplaysMove`).

## Model

| member | source | states |
|---|---|---|
| Pieces.MarkersFollowParity | checkers_info.py:18-22 | the markers of turn t and t + 2 are equal; those of t and t + 1 differ; a side's piece and king markers differ |
| Pieces.Glyph | checkers_info.py:5 | the stored character is a space exactly for an empty square, lower case for regular pieces and upper case for kings, `r`/`R` for red and `b`/`B` for black |
| Pieces.GlyphsDistinct | checkers_info.py:5 | different cells are stored as different characters |
| Grid.StartShape | checkers_info.py:6-16 | in the opening board only squares with odd row + column hold pieces: red on rows 1-3, black on rows 6-8, no kings |
| Grid.StartRule | checkers_info.py:6-16 | every opening square equals the rule form `StartCell` |
| Grid.StartCounts | checkers_info.py:6-16 | each side starts with twelve pieces |
| Opening.NoOpeningJump | checkers_ai.py:90-163 | in the opening position no red piece has a jump, because no black piece stands diagonally ahead of any red piece |
| Opening.OpeningSuccessors | checkers_ai.py:16-43 | a board is one legal red move from the opening position exactly when it moves a row-3 piece one square diagonally onto row 4 |
| Opening.OpeningMember | checkers_ai.py:16-43 | get_succ on the opening position lists a board exactly when it is one of the seven advances |
| Opening.OpeningMoves | checkers_ai.py:16-43 | get_succ on the opening position returns exactly seven boards, the seven advances, each once |
| Opening.OpeningOrder | checkers_ai.py:16-43 | get_succ on the opening position lists the advances in order: the row-3 pieces from left to right, each stepping left before right; the opening position, appended by the first piece's copy_jump_state, is removed at line 42 |
| Moves.Locs | checkers_ai.py:167-186 | get_locs lists every square holding the marker and only such squares, in row-major order |
| Moves.LocsUnique | checkers_ai.py:167-186 | any row-major list of exactly the squares holding the marker is get_locs' list |
| Evaluation.LocsCount | checkers_ai.py:167-186 | a side's regular-piece list and king list together are as long as its piece count |
| Moves.Jumps | checkers_ai.py:90-165 | copy_jump_state only appends to the list, and it never makes a list without repeats repeat |
| Moves.RemoveFirst | checkers_ai.py:42 | `list.remove` takes out one occurrence: the multiset of the result is that of the input minus `x`, and a list without `x` is unchanged |
| Moves.RemoveFirstOrder | checkers_ai.py:42 | the removal deletes the first occurrence of `x` and keeps the elements before and after it in their order |
| Moves.RemoveFirstDistinct | checkers_ai.py:42 | on a list without repeats, the removal leaves no copy of the removed board |
| Legality.SimpleMovesSpec | checkers_ai.py:45-88 | copy_simple_state produces exactly the one-square diagonal steps to an empty square: forward for any piece, backward for kings, crowning a forward step onto row 1 or 8 |
| Legality.SimpleMovesDistinct | checkers_ai.py:45-88 | copy_simple_state produces no board twice |
| Legality.JumpOptionsSpec | checkers_ai.py:104-163 | the jumps considered from one square are exactly those over an adjacent opponent piece onto the empty square beyond: forward always, backward for kings, the captured square emptied, a forward jump onto row 1 or 8 crowned |
| Legality.CrowningEndsChain | checkers_ai.py:114-120 | a regular piece that jumps onto the far row is crowned, goes on as a regular piece, and has no jump left |
| Legality.JumpsMembers | checkers_ai.py:90-165 | copy_jump_state adds exactly the end boards of the maximal capture chains, or the board itself when no jump applies |
| Legality.FinalCount | checkers_ai.py:90-165 | a capture chain ends at its start only when no jump applies there; otherwise it strictly lowers the opponent's count |
| Legality.JumpEffect | checkers_ai.py:109-120 | one jump keeps the mover's count, takes exactly one opponent piece, and leaves the mover's piece on the landing square |
| Legality.CaptureEffect | checkers_ai.py:90-165 | a whole capture keeps the mover's count and lowers the opponent's |
| Legality.CandidatesSound | checkers_ai.py:24-41 | every board the two loops of get_succ collect comes from a step or maximal capture of one of the mover's pieces |
| Legality.CandidatesComplete | checkers_ai.py:24-41 | every step or maximal capture of one of the mover's pieces is collected |
| Legality.GetSuccSpec | checkers_ai.py:16-43 | a board is in get_succ exactly when it is one legal move away |
| Legality.GetSuccDistinct | checkers_ai.py:16-43 | get_succ lists each board once and never the input board |
| Legality.LegalMoveChanges | checkers_ai.py:45-165 | a legal move always changes the board |
| Legality.SuccessorCounts | checkers_ai.py:16-43 | no successor loses a piece of the mover or gains an opponent piece |
| Evaluation.Weight | checkers_ai.py:243-265 | every piece weighs between 1 and 15 |
| Evaluation.Tally | checkers_ai.py:243-265 | each loop counts one per listed piece and adds between 1 and 15 per piece |
| Evaluation.GameValueTerminal | checkers_ai.py:234-239 | the value is -1 when the mover has no piece (checked first) and 1 when only the opponent has none |
| Evaluation.GameValueFormula | checkers_ai.py:234-275 | otherwise the value is the per-row material of the mover minus that of the opponent, minus 1, plus or minus 2 by which side has more pieces |
| Evaluation.GameValueInside | checkers_ai.py:234-275 | with one to twelve pieces a side, the value is strictly between -1 and 1 |
| Evaluation.GameValueBounded | checkers_ai.py:234-275 | the value never reaches the search's initial bounds |
| Search.MaxValue | checkers_ai.py:188-209 | max_value answers the board itself or one of its successors; the board itself comes with its own value or a cut-off value of at least beta; a won position is answered at once; depth 0 answers the static value; with alpha < beta the value stays in range |
| Search.MaxLoop | checkers_ai.py:194-209 | the loop answers the board, a child or an element of the held best_states (that best_states holds only children worth the current alpha is stated one ply above the leaves, by `Search.MaxScanSpec`); a child comes with a terminal value or at least alpha; a child whose value ends the game is answered at once with that value; with alpha < beta, a non-terminal child worth at least beta prunes, answering the board with that child's value; the board comes with a value below beta only when no tie was held and nothing was pruned, and then with its own static value; with no children and no tie the board's static value is answered |
| Search.MinValue | checkers_ai.py:211-232 | the mirror image of max_value, with at most alpha and -1 |
| Search.MinLoop | checkers_ai.py:217-232 | the mirror image of the max loop: a child whose value ends the game is answered at once; with alpha < beta, a non-terminal child worth at most alpha prunes, answering the board with that child's value; the board comes with a value above alpha only as its own static value with no tie held; with no children and no tie the static value is answered |
| Search.MaxLoopScan | checkers_ai.py:193-203 | one ply above the leaves, each child of max_value is worth its own static value whatever the window, so the loop runs on the list of those values |
| Search.MaxScanSpec | checkers_ai.py:194-209 | on a list of child values, the first value that is 1, -1 or at least beta decides: 1 or -1 is answered with its child, otherwise the board is answered with that value; when no value stops the loop and some value is at least alpha or a tie is held, a greatest value is answered with its child (or a held tie, worth alpha), so best_states is cleared whenever alpha rises; with every value below alpha, none terminal, and no tie, the static value is answered |
| Search.MaxScanDual | checkers_ai.py:194-203 | max_value's loop is min_value's loop on the negated values with the window flipped: raising alpha and clearing best_states mirrors lowering beta |
| Search.MaxValueOnePly | checkers_ai.py:188-203 | max_value one ply above the leaves: the first child whose static value is 1, -1 or at least beta decides; a terminal child is answered with its value, otherwise the board with that value |
| Search.MaxValueOnePlyBest | checkers_ai.py:194-209 | in the same setting, when no child stops the loop and some child is worth at least alpha, a child of greatest value is answered with that value, so best_states only ever holds children worth the current alpha |
| Search.MaxValueOnePlyStatic | checkers_ai.py:205 | in the same setting, when every child is below alpha and none ends the game, the board's own static value is answered, not alpha |
| Search.MaxValueTies | checkers_ai.py:205-206 | when no child ends the game or is worth at least beta, every greatest-valued child worth at least alpha can be answered: the random choice ranges over all tied best children |
| Search.MinLoopScan | checkers_ai.py:216-226 | one ply above the leaves, each child is worth its own static value whatever the window, so the loop runs on the list of those values |
| Search.MinScanSpec | checkers_ai.py:217-232 | on a list of child values, the first value that is 1, -1 or at most alpha decides: 1 or -1 is answered with its child, otherwise the board is answered with that value; when no value stops the loop and some value is at most beta or a tie is held, a least value is answered with its child (or a held tie, worth beta); with every value above beta, none terminal, and no tie, the static value is answered |
| Search.MinValueOnePly | checkers_ai.py:211-226 | min_value one ply above the leaves (its fifth ply in choose_move): the first child whose static value is 1, -1 or at most alpha decides; a terminal child is answered with its value, otherwise the board with that value |
| Search.MinValueOnePlyBest | checkers_ai.py:217-232 | in the same setting, when no child stops the loop and some child is worth at most beta, a child of least value is answered with that value |
| Search.MinValueOnePlyStatic | checkers_ai.py:228 | in the same setting, when every child is above beta and none ends the game, the board's own static value is answered, not beta |
| Search.MinValueTies | checkers_ai.py:228-229 | when no child ends the game or is worth at most alpha, every least-valued child worth at most beta can be answered: the random choice ranges over all tied best children |
| Search.MaxLoopPicks | checkers_ai.py:192-209 | with the initial bounds the max loop never prunes and always answers a child |
| Search.ChooseMoveIsSuccessor | checkers_ai.py:12-14 | choose_move answers a successor whenever there is one and the game is not already won |
| Player.ParseSquare | checkers.py:38-43 | a parsed square is on the board; a failure is "Invalid row." or "Invalid column." |
| Player.ParseSquareErrors | checkers.py:38-43 | the row digit is checked before the column letter, each failing exactly on the characters outside `1`-`8` and `A`-`H`/`a`-`h` |
| Player.ParseFormat | checkers.py:38-43 | the label of every square parses back to it, and only its label (up to letter case) does |
| Player.OriginErrors | checkers.py:36-46 | the piece coordinate is checked for length, row, column, then a destination must be given, each with its message |
| Player.Step | checkers.py:66-69 | a replayed step moves the piece, crowning it on row 1 or 8, and clears the origin and, for a two-square step, the square in between, changing nothing else |
| Player.ReplaySteps | checkers.py:49-72 | the replay of no destinations is the board itself; the first destination is rejected for its length, then its row, then its column, with the matching message |
| Player.StepErrors | checkers.py:59-64 | a non-diagonal or overlong step is "Invalid move."; a one-square step among several destinations is "Invalid multi-move." |
| Player.ValidateMove | checkers.py:27-77 | a typed move is accepted exactly when it names a square, lists a destination and replays onto a board of get_succ; an accepted move installs that replayed board with no message; a rejected one leaves the board as it was, with one of the seven messages |
| Player.ValidateMoveLegal | checkers.py:74-77 | a typed move is accepted exactly when its replay is one legal move away; only such a board is installed |
| Player.StepReplaysMove | checkers.py:66-68 | replaying a legal step gives copy_simple_state's board |
| Player.JumpReplaysMove | checkers.py:66-69 | replaying one jump gives copy_jump_state's board |
| Player.ChainReplays | checkers.py:49-72 | typing the landing squares of a capture chain replays it to its end |
| Player.EveryMoveCanBeEntered | checkers.py:27-77 | every board of get_succ can be typed in and is accepted, installing exactly that board |
| Player.CheckWin | checkers.py:24-25 | check_win is zero exactly when the side to move has no legal move |

## Left out

- Terminal I/O is not modelled: printing the board, the rules text, the menu, `main`, `sleep` and `exit`.
- The random colour choice in `CheckersPlayer.__init__` is not modelled. Turn parity is an input.
- `randint` in the search is the parameter `tie`. The model does not claim the choice is uniform. Because `tie` is a function of the list of tied boards, two nodes holding equal lists always get the same pick, whereas `randint` draws afresh each time; no contract depends on this, and the tie lemmas quantify over every `tie`.
- The float `total / 200` is modelled by its numerator. Every comparison the search makes is preserved.
- Board border glyphs and labels are not modelled, and neither is `get_board`'s sharing of `board_start`. Only the 64 playable squares exist here.
- `int()` and `str.upper()` are modelled on ASCII only: `int` accepts other Unicode decimal digits, and `upper` maps some non-ASCII letters. No ASCII input is affected.
- Search.MaxValue: does not state that the answer is an optimal move. It gives where the answer comes from and the range of its value. The search's choice is characterised exactly only one ply above the leaves (`Search.MaxValueOnePly`, `Search.MinValueOnePly`). Deeper plies are not related to a minimax reference: a loop where every child fails low answers the static value instead of the bound, so the fail-hard correspondence with minimax does not hold as written.
- Search.MinValue: like `Search.MaxValue`, its contract gives where the answer comes from, the shape and range of its value, and the exit on -1, but relates it to no minimax reference above the ply next to the leaves (`Search.MinValueOnePly`). The same fail-low behaviour breaks that correspondence as written.
- Search.ChooseMoveIsSuccessor: when the position is already won (value 1), `max_value` returns the input board, and the lemma says nothing about that case.
- Evaluation.GameValueInside: the bound assumes at most twelve pieces a side. The program never checks this; the opening board satisfies it (`Grid.StartCounts`), and no move adds a piece (`Legality.SuccessorCounts`).
- Whether a position can actually arise in play is not modelled. Every lemma holds for every grid of cells.
- The double-capture scenario is not proved as a concrete instance. The general statement `Legality.JumpsMembers` covers it.

=== FILE: evaluation.dfy ===
/** game_value of checkers_ai.py. The program returns `total / 200`; the
    model returns the integer numerator `total`, so the terminal values 1 and
    -1 become `Win` and `-Win`. Division by a positive constant keeps order
    and equality, which is all the search looks at. */
module Evaluation {
  import opened Pieces
  import opened Grid
  import opened Moves

  /** The numerator of the terminal values 1 and -1. */
  const Win: int := 200

  /** The square's row is in the half where the program adds the bigger
      weight. The test uses the parity of the turn being evaluated for the
      pieces of both sides. */
  predicate Threat(row: int, t: int) {
    (row < 5 && t % 2 == 1) || (row > 4 && t % 2 == 0)
  }

  /** The magnitude one loop of game_value adds (mover) or subtracts
      (opponent) for a piece standing on row `row`. `crowded` says the side
      owning the piece has more than six regular pieces. */
  function Weight(row: int, t: int, crowded: bool, mine: bool, king: bool): (w: int)
    ensures 1 <= w <= 15
  {
    if king then 5
    else if row == 1 || row == 8 then (if crowded then (if mine then 15 else 5) else 2)
    else if Threat(row, t) then 3
    else 1
  }

  /** One `for` loop of game_value over a location list: the summed weight
      and the number of iterations. */
  function Tally(l: seq<Square>, t: int, crowded: bool, mine: bool, king: bool): (res: (int, nat))
    ensures res.1 == |l|
    ensures |l| <= res.0 <= 15 * |l|
  {
    if l == [] then (0, 0)
    else
      var rest := Tally(l[1..], t, crowded, mine, king);
      (Weight(l[0].row, t, crowded, mine, king) + rest.0, rest.1 + 1)
  }

  /** game_value(b, t), scaled by 200. */
  function GameValue(b: Board, t: int): int {
    var my, opp := GetLocs(b, t), GetLocs(b, t + 1);
    ValueOf(my.0, my.1, opp.0, opp.1, t)
  }

  /** game_value once get_locs has listed the pieces of both sides. */
  function ValueOf(myP: seq<Square>, myK: seq<Square>, opP: seq<Square>, opK: seq<Square>, t: int): int {
    var n0, n1 := |myP| + |myK|, |opP| + |opK|;
    if n0 == 0 then -Win
    else if n1 == 0 then Win
    else Total(myP, myK, opP, opK, t)
  }

  /** The non-terminal part of game_value: the four loops over the location
      lists, then the three adjustments. */
  function Total(myP: seq<Square>, myK: seq<Square>, opP: seq<Square>, opK: seq<Square>, t: int): int {
    var n0, n1 := |myP| + |myK|, |opP| + |opK|;
    var a, ka := Tally(myP, t, |myP| > 6, true, false), Tally(myK, t, false, true, true);
    var o, ko := Tally(opP, t, |opP| > 6, false, false), Tally(opK, t, false, false, true);
    var numM, numO := a.1 + ka.1, o.1 + ko.1;
    var total := a.0 + ka.0 - o.0 - ko.0;
    total + (if numM == n0 then 4 else -4) + (if numO < n1 then 5 else -5) + (if numM > numO then 2 else -2)
  }

  // ---------------------------------------------------------------------
  // Counting by rows: an independent reading of the location lists

  /** How often `x` occurs in `row`. */
  function Occurrences(row: seq<Cell>, x: Cell): nat {
    if row == [] then 0 else (if row[0] == x then 1 else 0) + Occurrences(row[1..], x)
  }

  /** How often `x` occurs on the rows `rows`. */
  function OccurrencesIn(rows: seq<Row>, x: Cell): nat {
    if rows == [] then 0 else Occurrences(rows[0], x) + OccurrencesIn(rows[1..], x)
  }

  /** The weight of every `x` on rows r, r + 1, ... of `rows`, row by row:
      a piece's weight depends on its row only. */
  function RowsWeight(rows: seq<Row>, r: int, x: Cell, t: int, crowded: bool, mine: bool): int {
    if rows == [] then 0
    else Weight(r, t, crowded, mine, x.King?) * Occurrences(rows[0], x)
         + RowsWeight(rows[1..], r + 1, x, t, crowded, mine)
  }

  /** Per-row material of the side to move minus that of its opponent. */
  function Material(b: Board, t: int): int {
    var crowdedM, crowdedO := OccurrencesIn(b, Piece(t)) > 6, OccurrencesIn(b, Piece(t + 1)) > 6;
    RowsWeight(b, 1, Piece(t), t, crowdedM, true) + RowsWeight(b, 1, KingOf(t), t, false, true)
    - RowsWeight(b, 1, Piece(t + 1), t, crowdedO, false) - RowsWeight(b, 1, KingOf(t + 1), t, false, false)
  }

  lemma {:induction false} TallyConcat(l1: seq<Square>, l2: seq<Square>, t: int, crowded: bool, mine: bool, king: bool)
    ensures Tally(l1 + l2, t, crowded, mine, king).0
            == Tally(l1, t, crowded, mine, king).0 + Tally(l2, t, crowded, mine, king).0
  {
    if l1 != [] {
      assert (l1 + l2)[1..] == l1[1..] + l2;
      TallyConcat(l1[1..], l2, t, crowded, mine, king);
    } else {
      assert l1 + l2 == l2;
    }
  }

  lemma {:induction false} RowLocsTally(row: seq<Cell>, r: int, c: int, x: Cell, t: int, crowded: bool, mine: bool)
    ensures |RowLocs(row, r, c, x)| == Occurrences(row, x)
    ensures Tally(RowLocs(row, r, c, x), t, crowded, mine, x.King?).0
            == Weight(r, t, crowded, mine, x.King?) * Occurrences(row, x)
    decreases |row|
  {
    if row != [] {
      RowLocsTally(row[1..], r, c + 1, x, t, crowded, mine);
      RowLocsStep(row, r, c, x, t, crowded, mine);
      if row[0] == x {
        MulSucc(Weight(r, t, crowded, mine, x.King?), Occurrences(row[1..], x));
      }
    }
  }

  /** Distribution for one more occurrence, proved apart: in the context of
      RowLocsTally the nonlinear step does not close. */
  lemma MulSucc(w: int, o: int)
    ensures w * (o + 1) == w * o + w
  {
  }

  /** The first cell of a row adds its square, and its weight, when it holds
      `x`. */
  lemma RowLocsStep(row: seq<Cell>, r: int, c: int, x: Cell, t: int, crowded: bool, mine: bool)
    requires row != []
    ensures |RowLocs(row, r, c, x)| == (if row[0] == x then 1 else 0) + |RowLocs(row[1..], r, c + 1, x)|
    ensures Occurrences(row, x) == (if row[0] == x then 1 else 0) + Occurrences(row[1..], x)
    ensures Tally(RowLocs(row, r, c, x), t, crowded, mine, x.King?).0
            == (if row[0] == x then Weight(r, t, crowded, mine, x.King?) else 0)
               + Tally(RowLocs(row[1..], r, c + 1, x), t, crowded, mine, x.King?).0
  {
    var head: seq<Square> := if row[0] == x then [Sq(r, c)] else [];
    var tail := RowLocs(row[1..], r, c + 1, x);
    assert RowLocs(row, r, c, x) == head + tail;
    TallyConcat(head, tail, t, crowded, mine, x.King?);
  }

  lemma {:induction false} RowsLocsTally(rows: seq<Row>, r: int, x: Cell, t: int, crowded: bool, mine: bool)
    ensures |RowsLocs(rows, r, x)| == OccurrencesIn(rows, x)
    ensures Tally(RowsLocs(rows, r, x), t, crowded, mine, x.King?).0 == RowsWeight(rows, r, x, t, crowded, mine)
    decreases |rows|
  {
    if rows != [] {
      RowLocsTally(rows[0], r, 1, x, t, crowded, mine);
      RowsLocsTally(rows[1..], r + 1, x, t, crowded, mine);
      TallyConcat(RowLocs(rows[0], r, 1, x), RowsLocs(rows[1..], r + 1, x), t, crowded, mine, x.King?);
    }
  }

  lemma {:induction false} CountRowSplit(row: seq<Cell>, s: Side)
    ensures CountRow(row, s) == Occurrences(row, Man(s)) + Occurrences(row, King(s))
  {
    if row != [] {
      CountRowSplit(row[1..], s);
    }
  }

  lemma {:induction false} CountRowsSplit(rows: seq<Row>, s: Side)
    ensures CountRows(rows, s) == OccurrencesIn(rows, Man(s)) + OccurrencesIn(rows, King(s))
  {
    if rows != [] {
      CountRowSplit(rows[0], s);
      CountRowsSplit(rows[1..], s);
    }
  }

  /** get_locs finds every piece of a side: its two lists together are as
      long as the side's piece count. */
  lemma LocsCount(b: Board, s: Side)
    ensures |Locs(b, Man(s))| + |Locs(b, King(s))| == Count(b, s)
  {
    RowsLocsTally(b, 1, Man(s), 0, false, true);
    RowsLocsTally(b, 1, King(s), 0, false, true);
    CountRowsSplit(b, s);
  }

  /** game_value as a per-row material balance: the comparison `num_m == n[0]`
      always holds and `num_o < n[1]` never does, so those two terms always
      add 4 - 5; only the comparison of the piece counts varies. */
  lemma GameValueFormula(b: Board, t: int)
    requires Count(b, SideOf(t)) > 0 && Count(b, SideOf(t + 1)) > 0
    ensures GameValue(b, t)
            == Material(b, t) - 1 + (if Count(b, SideOf(t)) > Count(b, SideOf(t + 1)) then 2 else -2)
  {
    var myP, myK := Locs(b, Piece(t)), Locs(b, KingOf(t));
    var opP, opK := Locs(b, Piece(t + 1)), Locs(b, KingOf(t + 1));
    LocsCount(b, SideOf(t));
    LocsCount(b, SideOf(t + 1));
    ValueFormula(myP, myK, opP, opK, t);
    MaterialTally(b, t);
  }

  /** With pieces on both sides, game_value is the tally of the four lists
      with the two constant adjustments folded in. */
  lemma ValueFormula(myP: seq<Square>, myK: seq<Square>, opP: seq<Square>, opK: seq<Square>, t: int)
    requires |myP| + |myK| > 0 && |opP| + |opK| > 0
    ensures ValueOf(myP, myK, opP, opK, t)
            == Tally(myP, t, |myP| > 6, true, false).0 + Tally(myK, t, false, true, true).0
               - Tally(opP, t, |opP| > 6, false, false).0 - Tally(opK, t, false, false, true).0
               - 1 + (if |myP| + |myK| > |opP| + |opK| then 2 else -2)
  {
    TotalFormula(myP, myK, opP, opK, t);
  }

  /** Total with the two constant adjustments folded in. */
  lemma TotalFormula(myP: seq<Square>, myK: seq<Square>, opP: seq<Square>, opK: seq<Square>, t: int)
    ensures Total(myP, myK, opP, opK, t)
            == Tally(myP, t, |myP| > 6, true, false).0 + Tally(myK, t, false, true, true).0
               - Tally(opP, t, |opP| > 6, false, false).0 - Tally(opK, t, false, false, true).0
               - 1 + (if |myP| + |myK| > |opP| + |opK| then 2 else -2)
  {
  }

  /** Material is what game_value's four loops add up. */
  lemma MaterialTally(b: Board, t: int)
    ensures Material(b, t)
            == Tally(Locs(b, Piece(t)), t, |Locs(b, Piece(t))| > 6, true, false).0
               + Tally(Locs(b, KingOf(t)), t, false, true, true).0
               - Tally(Locs(b, Piece(t + 1)), t, |Locs(b, Piece(t + 1))| > 6, false, false).0
               - Tally(Locs(b, KingOf(t + 1)), t, false, false, true).0
  {
    var crowdedM, crowdedO := OccurrencesIn(b, Piece(t)) > 6, OccurrencesIn(b, Piece(t + 1)) > 6;
    RowsLocsTally(b, 1, Piece(t), t, crowdedM, true);
    RowsLocsTally(b, 1, KingOf(t), t, false, true);
    RowsLocsTally(b, 1, Piece(t + 1), t, crowdedO, false);
    RowsLocsTally(b, 1, KingOf(t + 1), t, false, false);
  }

  /** The terminal values: -1 when the side to move has no piece (checked
      first), 1 when only the opponent has none. */
  lemma GameValueTerminal(b: Board, t: int)
    ensures Count(b, SideOf(t)) == 0 ==> GameValue(b, t) == -Win
    ensures Count(b, SideOf(t)) > 0 && Count(b, SideOf(t + 1)) == 0 ==> GameValue(b, t) == Win
  {
    LocsCount(b, SideOf(t));
    LocsCount(b, SideOf(t + 1));
  }

  /** With at most twelve pieces a side and both sides on the board the value
      lies strictly between -1 and 1, so the search's tests for +-1 see only
      finished games. */
  lemma GameValueInside(b: Board, t: int)
    requires 0 < Count(b, SideOf(t)) <= 12 && 0 < Count(b, SideOf(t + 1)) <= 12
    ensures -Win < GameValue(b, t) < Win
  {
    var myP, myK := Locs(b, Piece(t)), Locs(b, KingOf(t));
    var opP, opK := Locs(b, Piece(t + 1)), Locs(b, KingOf(t + 1));
    LocsCount(b, SideOf(t));
    LocsCount(b, SideOf(t + 1));
    assert GameValue(b, t) == Total(myP, myK, opP, opK, t);
    TotalBounds(myP, myK, opP, opK, t, 12);
  }

  /** The value is never as far out as the search's initial bounds. */
  lemma GameValueBounded(b: Board, t: int)
    ensures -1000 <= GameValue(b, t) <= 1000
  {
    LocsCount(b, SideOf(t));
    LocsCount(b, SideOf(t + 1));
    CountAtMost(b, SideOf(t));
    CountAtMost(b, SideOf(t + 1));
    TotalBounds(Locs(b, Piece(t)), Locs(b, KingOf(t)), Locs(b, Piece(t + 1)), Locs(b, KingOf(t + 1)), t, 64);
  }

  lemma {:induction false} CountRowAtMost(row: seq<Cell>, s: Side)
    ensures CountRow(row, s) <= |row|
  {
    if row != [] {
      CountRowAtMost(row[1..], s);
    }
  }

  lemma {:induction false} CountRowsAtMost(rows: seq<Row>, s: Side)
    ensures CountRows(rows, s) <= 8 * |rows|
  {
    if rows != [] {
      CountRowAtMost(rows[0], s);
      CountRowsAtMost(rows[1..], s);
    }
  }

  /** A side has at most one piece per square. */
  lemma CountAtMost(b: Board, s: Side)
    ensures Count(b, s) <= 64
  {
    CountRowsAtMost(b, s);
  }

  /** Every piece weighs between 1 and 15. */
  lemma TotalBounds(myP: seq<Square>, myK: seq<Square>, opP: seq<Square>, opK: seq<Square>, t: int, n: nat)
    requires |myP| + |myK| <= n && |opP| + |opK| <= n
    ensures |myP| + |myK| - 15 * n - 11 <= Total(myP, myK, opP, opK, t) <= 15 * n - (|opP| + |opK|) + 11
  {
  }
}

=== FILE: grid.dfy ===
/** The playable 8x8 part of the board, addressed 1..8 in both axes as the
    program does, with per-colour piece counts and the opening position. */
module Grid {
  import opened Pieces

  type Row = r: seq<Cell> | |r| == 8
    witness [Empty, Empty, Empty, Empty, Empty, Empty, Empty, Empty]

  type Board = b: seq<Row> | |b| == 8
    witness seq(8, _ => [Empty, Empty, Empty, Empty, Empty, Empty, Empty, Empty])

  predicate OnBoard(r: int, c: int) {
    1 <= r <= 8 && 1 <= c <= 8
  }

  /** The cell at row `r`, column `c` (both 1-based). */
  function At(b: Board, r: int, c: int): Cell
    requires OnBoard(r, c)
  {
    b[r - 1][c - 1]
  }

  /** `b` with the cell at (r, c) replaced by `x`; every other cell is kept. */
  function Set(b: Board, r: int, c: int, x: Cell): (m: Board)
    requires OnBoard(r, c)
    ensures At(m, r, c) == x
    ensures forall i, j | OnBoard(i, j) && (i != r || j != c) :: At(m, i, j) == At(b, i, j)
  {
    b[r - 1 := b[r - 1][c - 1 := x]]
  }

  /** Two boards agreeing on every square are the same board. */
  lemma Extensional(a: Board, b: Board)
    requires forall i, j | OnBoard(i, j) :: At(a, i, j) == At(b, i, j)
    ensures a == b
  {
    forall i | 0 <= i < 8
      ensures a[i] == b[i]
    {
      forall j | 0 <= j < 8
        ensures a[i][j] == b[i][j]
      {
        assert At(a, i + 1, j + 1) == At(b, i + 1, j + 1);
      }
    }
  }

  /** The piece at (r, c) moved to (r2, c2) as `x`, leaving (r, c) empty: the
      two writes every move performs, destination first. */
  function Relocate(b: Board, r: int, c: int, r2: int, c2: int, x: Cell): (m: Board)
    requires OnBoard(r, c) && OnBoard(r2, c2) && (r != r2 || c != c2)
    ensures At(m, r2, c2) == x && At(m, r, c) == Empty
    ensures forall i, j | OnBoard(i, j) && (i != r || j != c) && (i != r2 || j != c2) ::
              At(m, i, j) == At(b, i, j)
  {
    Set(Set(b, r2, c2, x), r, c, Empty)
  }

  /** 1 when `x` is a piece (regular or king) of colour `s`, else 0. */
  function Owns(x: Cell, s: Side): nat {
    if x != Empty && x.side == s then 1 else 0
  }

  function CountRow(row: seq<Cell>, s: Side): nat {
    if row == [] then 0 else Owns(row[0], s) + CountRow(row[1..], s)
  }

  function CountRows(rows: seq<Row>, s: Side): nat {
    if rows == [] then 0 else CountRow(rows[0], s) + CountRows(rows[1..], s)
  }

  /** Number of squares holding a piece of colour `s`. */
  function Count(b: Board, s: Side): nat {
    CountRows(b, s)
  }

  lemma {:induction false} CountRowUpdate(row: seq<Cell>, i: nat, x: Cell, s: Side)
    requires i < |row|
    ensures CountRow(row[i := x], s) == CountRow(row, s) - Owns(row[i], s) + Owns(x, s)
  {
    if i > 0 {
      assert row[i := x][1..] == row[1..][i - 1 := x];
      CountRowUpdate(row[1..], i - 1, x, s);
    } else {
      assert row[i := x][1..] == row[1..];
    }
  }

  lemma {:induction false} CountRowsUpdate(rows: seq<Row>, i: nat, row: Row, s: Side)
    requires i < |rows|
    ensures CountRows(rows[i := row], s) == CountRows(rows, s) - CountRow(rows[i], s) + CountRow(row, s)
  {
    if i > 0 {
      assert rows[i := row][1..] == rows[1..][i - 1 := row];
      CountRowsUpdate(rows[1..], i - 1, row, s);
    } else {
      assert rows[i := row][1..] == rows[1..];
    }
  }

  /** Writing one cell changes a colour's count by what leaves and what arrives. */
  lemma CountSet(b: Board, r: int, c: int, x: Cell, s: Side)
    requires OnBoard(r, c)
    ensures Count(Set(b, r, c, x), s) == Count(b, s) - Owns(At(b, r, c), s) + Owns(x, s)
  {
    CountRowUpdate(b[r - 1], c - 1, x, s);
    CountRowsUpdate(b, r - 1, b[r - 1][c - 1 := x], s);
  }

  /** Relocating a piece onto an empty square changes a colour's count only
      through the replaced piece. */
  lemma CountRelocate(b: Board, r: int, c: int, r2: int, c2: int, x: Cell, s: Side)
    requires OnBoard(r, c) && OnBoard(r2, c2) && (r != r2 || c != c2)
    requires At(b, r2, c2) == Empty
    ensures Count(Relocate(b, r, c, r2, c2, x), s) == Count(b, s) - Owns(At(b, r, c), s) + Owns(x, s)
  {
    CountSet(b, r2, c2, x, s);
    CountSet(Set(b, r2, c2, x), r, c, Empty, s);
  }

  /** A row's count as the sum over its eight cells. Stated for any row so
      that counting the opening board does not unfold the recursion on the
      literal rows. */
  lemma CountRowUnrolled(row: Row, s: Side)
    ensures CountRow(row, s) == Owns(row[0], s) + Owns(row[1], s) + Owns(row[2], s) + Owns(row[3], s)
                                + Owns(row[4], s) + Owns(row[5], s) + Owns(row[6], s) + Owns(row[7], s)
  {
    var t: seq<Cell> := row;
    assert CountRow(t, s) == Owns(t[0], s) + CountRow(t[1..], s);
    t := t[1..];
    assert CountRow(t, s) == Owns(t[0], s) + CountRow(t[1..], s);
    t := t[1..];
    assert CountRow(t, s) == Owns(t[0], s) + CountRow(t[1..], s);
    t := t[1..];
    assert CountRow(t, s) == Owns(t[0], s) + CountRow(t[1..], s);
    t := t[1..];
    assert CountRow(t, s) == Owns(t[0], s) + CountRow(t[1..], s);
    t := t[1..];
    assert CountRow(t, s) == Owns(t[0], s) + CountRow(t[1..], s);
    t := t[1..];
    assert CountRow(t, s) == Owns(t[0], s) + CountRow(t[1..], s);
    t := t[1..];
    assert CountRow(t, s) == Owns(t[0], s) + CountRow(t[1..], s);
    assert t[1..] == [];
  }

  lemma CountUnrolled(b: Board, s: Side)
    ensures Count(b, s) == CountRow(b[0], s) + CountRow(b[1], s) + CountRow(b[2], s) + CountRow(b[3], s)
                           + CountRow(b[4], s) + CountRow(b[5], s) + CountRow(b[6], s) + CountRow(b[7], s)
  {
    var t: seq<Row> := b;
    assert CountRows(t, s) == CountRow(t[0], s) + CountRows(t[1..], s);
    t := t[1..];
    assert CountRows(t, s) == CountRow(t[0], s) + CountRows(t[1..], s);
    t := t[1..];
    assert CountRows(t, s) == CountRow(t[0], s) + CountRows(t[1..], s);
    t := t[1..];
    assert CountRows(t, s) == CountRow(t[0], s) + CountRows(t[1..], s);
    t := t[1..];
    assert CountRows(t, s) == CountRow(t[0], s) + CountRows(t[1..], s);
    t := t[1..];
    assert CountRows(t, s) == CountRow(t[0], s) + CountRows(t[1..], s);
    t := t[1..];
    assert CountRows(t, s) == CountRow(t[0], s) + CountRows(t[1..], s);
    t := t[1..];
    assert CountRows(t, s) == CountRow(t[0], s) + CountRows(t[1..], s);
    assert t[1..] == [];
  }

  /** The playable part of the opening position of checkers_info.py: red on
      rows 1-3, black on rows 6-8. */
  const Start: Board :=
    var e, r, k := Empty, Man(Red), Man(Black);
    [[e, r, e, r, e, r, e, r],
     [r, e, r, e, r, e, r, e],
     [e, r, e, r, e, r, e, r],
     [e, e, e, e, e, e, e, e],
     [e, e, e, e, e, e, e, e],
     [k, e, k, e, k, e, k, e],
     [e, k, e, k, e, k, e, k],
     [k, e, k, e, k, e, k, e]]

  /** Rule form of the opening grid: pieces stand only on the squares with an
      odd row + column ("dark" squares); red fills those of rows 1-3, black
      those of rows 6-8, and rows 4-5 are empty. */
  function StartCell(r: int, c: int): Cell {
    if (r + c) % 2 == 0 then Empty
    else if r <= 3 then Man(Red)
    else if r >= 6 then Man(Black)
    else Empty
  }

  lemma StartRule(r: int, c: int)
    requires OnBoard(r, c)
    ensures At(Start, r, c) == StartCell(r, c)
  {
    if r == 1 {} else if r == 2 {} else if r == 3 {} else if r == 4 {}
    else if r == 5 {} else if r == 6 {} else if r == 7 {} else {}
  }

  /** Only squares with odd row + column are occupied: red on rows 1-3, black
      on rows 6-8, no kings. */
  lemma StartShape()
    ensures forall r, c | OnBoard(r, c) ::
              (At(Start, r, c) == Man(Red) <==> r <= 3 && (r + c) % 2 == 1)
              && (At(Start, r, c) == Man(Black) <==> r >= 6 && (r + c) % 2 == 1)
              && (At(Start, r, c) != Empty <==> (r <= 3 || r >= 6) && (r + c) % 2 == 1)
              && !At(Start, r, c).King?
  {
    forall r, c | OnBoard(r, c)
      ensures At(Start, r, c) == StartCell(r, c)
    {
      StartRule(r, c);
    }
  }

  lemma StartRowCount(i: int, s: Side)
    requires 0 <= i < 8
    ensures CountRow(Start[i], s) == (if (s == Red && i < 3) || (s == Black && i >= 5) then 4 else 0)
  {
    CountRowUnrolled(Start[i], s);
  }

  /** Each side starts with twelve pieces. */
  lemma StartCounts()
    ensures Count(Start, Red) == 12 && Count(Start, Black) == 12
  {
    StartRowCount(0, Red); StartRowCount(0, Black);
    StartRowCount(1, Red); StartRowCount(1, Black);
    StartRowCount(2, Red); StartRowCount(2, Black);
    StartRowCount(3, Red); StartRowCount(3, Black);
    StartRowCount(4, Red); StartRowCount(4, Black);
    StartRowCount(5, Red); StartRowCount(5, Black);
    StartRowCount(6, Red); StartRowCount(6, Black);
    StartRowCount(7, Red); StartRowCount(7, Black);
    CountUnrolled(Start, Red);
    CountUnrolled(Start, Black);
  }
}

=== FILE: legality.dfy ===
/** The rules of a single move stated declaratively, independent of the
    order in which checkers_ai.py enumerates them, and the lemmas tying
    get_succ to them. */
module Legality {
  import opened Pieces
  import opened Grid
  import opened Moves

  /** Moving the piece on (r, c) one square diagonally to the empty square
      (r2, c2): forward for every piece, backward only for kings. A forward
      step onto row 1 or 8 crowns the piece; every other step keeps it. */
  ghost predicate StepTo(b: Board, r: int, c: int, d: int, t: int, king: bool, r2: int, c2: int, x: Board)
    requires OnBoard(r, c)
  {
    && OnBoard(r2, c2)
    && (c2 == c - 1 || c2 == c + 1)
    && (r2 == r + d || (king && r2 == r - d))
    && At(b, r2, c2) == Empty
    && x == Relocate(b, r, c, r2, c2,
                     if r2 == r + d && (r2 == 1 || r2 == 8) then KingOf(t) else At(b, r, c))
  }

  ghost predicate IsStep(b: Board, r: int, c: int, d: int, t: int, king: bool, x: Board)
    requires OnBoard(r, c)
  {
    exists r2, c2 :: StepTo(b, r, c, d, t, king, r2, c2, x)
  }

  /** Jumping from (r, c) over an opponent piece to the empty square beyond:
      forward for every piece, backward only for kings. The landing square
      gets the piece (crowned on a forward jump onto row 1 or 8), the origin
      and the captured square are emptied. The chain continues as a king
      after a backward jump, and after a forward jump exactly when the piece
      was a king before the jump. */
  ghost predicate IsJump(b: Board, r: int, c: int, d: int, t: int, king: bool, o: Jump)
    requires OnBoard(r, c) && (d == 1 || d == -1)
  {
    var forward := o.row == r + 2 * d;
    var r1, c1 := (r + o.row) / 2, (c + o.col) / 2;
    && (forward || (king && o.row == r - 2 * d))
    && (o.col == c - 2 || o.col == c + 2)
    && OnBoard(o.row, o.col)
    && Theirs(At(b, r1, c1), t)
    && At(b, o.row, o.col) == Empty
    && o.board == Jumped(b, r, c, r1, c1, o.row, o.col,
                         if forward && (o.row == 1 || o.row == 8) then KingOf(t) else At(b, r, c))
    && o.king == (if forward then At(b, r, c) == KingOf(t) else true)
  }

  /** `x` is where a capture chain starting at (r, c) can end: follow jumps
      while any applies; a square with no jump ends the chain. The jumps are
      taken from the list `JumpOptions` so that the recursion has a finite
      branching to decrease over; `JumpOptionsSpec` shows that list holds
      exactly the jumps `IsJump` describes, so this is the rule stated over
      `IsJump`. */
  ghost predicate Final(b: Board, r: int, c: int, d: int, t: int, king: bool, x: Board)
    requires OnBoard(r, c) && (d == 1 || d == -1)
    decreases Count(b, SideOf(t + 1))
  {
    var opts := JumpOptions(b, r, c, d, t, king);
    if opts == [] then x == b
    else exists i | 0 <= i < |opts| :: Final(opts[i].board, opts[i].row, opts[i].col, d, t, opts[i].king, x)
  }

  /** `x` completes a chain of one or more jumps from (r, c). */
  ghost predicate Capture(b: Board, r: int, c: int, d: int, t: int, king: bool, x: Board)
    requires OnBoard(r, c) && (d == 1 || d == -1)
  {
    JumpOptions(b, r, c, d, t, king) != [] && Final(b, r, c, d, t, king, x)
  }

  /** One complete move of the piece on (r, c): a step or a maximal capture. */
  ghost predicate MoveFrom(b: Board, r: int, c: int, t: int, king: bool, x: Board)
    requires OnBoard(r, c)
  {
    IsStep(b, r, c, Forward(t), t, king, x) || Capture(b, r, c, Forward(t), t, king, x)
  }

  /** Moving the piece of the side to move that stands on (r, c) legally
      turns `b` into `x`. */
  ghost predicate LegalMove(b: Board, t: int, r: int, c: int, x: Board) {
    && OnBoard(r, c)
    && (|| (At(b, r, c) == Piece(t) && MoveFrom(b, r, c, t, false, x))
        || (At(b, r, c) == KingOf(t) && MoveFrom(b, r, c, t, true, x)))
  }

  /** `x` is reachable from `b` by one move of the side to move on turn `t`. */
  ghost predicate IsSuccessor(b: Board, t: int, x: Board) {
    exists r, c :: LegalMove(b, t, r, c, x)
  }

  // ---------------------------------------------------------------------
  // copy_simple_state against the step rule

  lemma StepsToRowSpec(b: Board, r: int, c: int, d: int, t: int, king: bool, r2: int, forward: bool, x: Board)
    requires OnBoard(r, c) && (d == 1 || d == -1)
    requires (forward && r2 == r + d) || (!forward && king && r2 == r - d)
    ensures x in StepsToRow(b, r, c, r2, t, forward) <==> exists c2 :: StepTo(b, r, c, d, t, king, r2, c2, x)
  {
    if x in StepsToRow(b, r, c, r2, t, forward) {
      if c > 1 && OnBoard(r2, c - 1) && At(b, r2, c - 1) == Empty
         && x == Relocate(b, r, c, r2, c - 1, Arriving(b, r, c, r2, t, forward)) {
        assert StepTo(b, r, c, d, t, king, r2, c - 1, x);
      } else {
        assert StepTo(b, r, c, d, t, king, r2, c + 1, x);
      }
    }
  }

  /** copy_simple_state produces exactly the steps the rule allows. */
  lemma SimpleMovesSpec(b: Board, r: int, c: int, d: int, t: int, king: bool, x: Board)
    requires OnBoard(r, c) && (d == 1 || d == -1)
    ensures x in SimpleMoves(b, r, c, d, t, king) <==> IsStep(b, r, c, d, t, king, x)
  {
    StepsToRowSpec(b, r, c, d, t, king, r + d, true, x);
    if king {
      StepsToRowSpec(b, r, c, d, t, king, r - d, false, x);
    }
    if IsStep(b, r, c, d, t, king, x) {
      var r2, c2 :| StepTo(b, r, c, d, t, king, r2, c2, x);
      if r2 == r + d {
        assert x in StepsToRow(b, r, c, r + d, t, true);
      } else {
        assert x in StepsToRow(b, r, c, r - d, t, false);
      }
    }
  }

  // ---------------------------------------------------------------------
  // copy_jump_state against the jump rule

  lemma JumpToSpec(b: Board, r: int, c: int, dr: int, dc: int, t: int, forward: bool,
                   d: int, king: bool, o: Jump)
    requires OnBoard(r, c) && (d == 1 || d == -1) && (dc == 1 || dc == -1)
    requires (forward && dr == d) || (!forward && king && dr == -d)
    requires 0 < r + 2 * dr < 9
    ensures o in JumpTo(b, r, c, dr, dc, t, forward)
            <==> IsJump(b, r, c, d, t, king, o) && o.row == r + 2 * dr && o.col == c + 2 * dc
  {
    if o in JumpTo(b, r, c, dr, dc, t, forward) {
      JumpToSound(b, r, c, dr, dc, t, forward, d, king, o);
    }
    if IsJump(b, r, c, d, t, king, o) && o.row == r + 2 * dr && o.col == c + 2 * dc {
      JumpToComplete(b, r, c, dr, dc, t, forward, d, king, o);
    }
  }

  lemma JumpToSound(b: Board, r: int, c: int, dr: int, dc: int, t: int, forward: bool,
                    d: int, king: bool, o: Jump)
    requires OnBoard(r, c) && (d == 1 || d == -1) && (dc == 1 || dc == -1)
    requires (forward && dr == d) || (!forward && king && dr == -d)
    requires 0 < r + 2 * dr < 9
    requires o in JumpTo(b, r, c, dr, dc, t, forward)
    ensures IsJump(b, r, c, d, t, king, o) && o.row == r + 2 * dr && o.col == c + 2 * dc
  {
    var r1, c1 := r + dr, c + dc;
    assert r1 == (r + o.row) / 2 && c1 == (c + o.col) / 2;
  }

  lemma JumpToComplete(b: Board, r: int, c: int, dr: int, dc: int, t: int, forward: bool,
                       d: int, king: bool, o: Jump)
    requires OnBoard(r, c) && (d == 1 || d == -1) && (dc == 1 || dc == -1)
    requires (forward && dr == d) || (!forward && king && dr == -d)
    requires 0 < r + 2 * dr < 9
    requires IsJump(b, r, c, d, t, king, o) && o.row == r + 2 * dr && o.col == c + 2 * dc
    ensures o in JumpTo(b, r, c, dr, dc, t, forward)
  {
    var r1, c1 := r + dr, c + dc;
    assert r1 == (r + o.row) / 2 && c1 == (c + o.col) / 2;
    var js := JumpTo(b, r, c, dr, dc, t, forward);
    assert js != [] by {
      assert if dc < 0 then c > 2 else c < 7;
    }
    JumpToSound(b, r, c, dr, dc, t, forward, d, king, js[0]);
    IsJumpUnique(b, r, c, d, t, king, o, js[0]);
  }

  /** A jump is determined by its landing square. */
  lemma IsJumpUnique(b: Board, r: int, c: int, d: int, t: int, king: bool, o: Jump, o': Jump)
    requires OnBoard(r, c) && (d == 1 || d == -1)
    requires IsJump(b, r, c, d, t, king, o) && IsJump(b, r, c, d, t, king, o')
    requires o.row == o'.row && o.col == o'.col
    ensures o == o'
  {
  }

  /** copy_jump_state considers exactly the jumps the rule allows. */
  lemma JumpOptionsSpec(b: Board, r: int, c: int, d: int, t: int, king: bool, o: Jump)
    requires OnBoard(r, c) && (d == 1 || d == -1)
    ensures o in JumpOptions(b, r, c, d, t, king) <==> IsJump(b, r, c, d, t, king, o)
  {
    if o in JumpOptions(b, r, c, d, t, king) {
      JumpOptionsSound(b, r, c, d, t, king, o);
    }
    if IsJump(b, r, c, d, t, king, o) {
      JumpOptionsComplete(b, r, c, d, t, king, o);
    }
  }

  lemma JumpOptionsSound(b: Board, r: int, c: int, d: int, t: int, king: bool, o: Jump)
    requires OnBoard(r, c) && (d == 1 || d == -1)
    requires o in JumpOptions(b, r, c, d, t, king)
    ensures IsJump(b, r, c, d, t, king, o)
  {
    var dr, dc, forward := JumpOptionsSplit(b, r, c, d, t, king, o);
    JumpToSound(b, r, c, dr, dc, t, forward, d, king, o);
  }

  lemma JumpOptionsComplete(b: Board, r: int, c: int, d: int, t: int, king: bool, o: Jump)
    requires OnBoard(r, c) && (d == 1 || d == -1)
    requires IsJump(b, r, c, d, t, king, o)
    ensures o in JumpOptions(b, r, c, d, t, king)
  {
    var forward := o.row == r + 2 * d;
    var dr, dc := if forward then d else -d, if o.col == c - 2 then -1 else 1;
    JumpToComplete(b, r, c, dr, dc, t, forward, d, king, o);
    JumpOptionsJoin(b, r, c, d, t, king, dr, dc, forward, o);
  }

  /** JumpOptions is made of the four one-direction lists: a member comes from
      one of them ... */
  lemma JumpOptionsSplit(b: Board, r: int, c: int, d: int, t: int, king: bool, o: Jump)
      returns (dr: int, dc: int, forward: bool)
    requires OnBoard(r, c) && (d == 1 || d == -1)
    requires o in JumpOptions(b, r, c, d, t, king)
    ensures (dc == 1 || dc == -1) && ((forward && dr == d) || (!forward && king && dr == -d))
    ensures 0 < r + 2 * dr < 9 && o in JumpTo(b, r, c, dr, dc, t, forward)
  {
    var fwd := JumpsToRow(b, r, c, d, t, true);
    if o in fwd {
      dr, forward := d, true;
    } else {
      dr, forward := -d, false;
    }
    dc := if o in JumpTo(b, r, c, dr, -1, t, forward) then -1 else 1;
  }

  /** ... and every member of each of them is a member. */
  lemma JumpOptionsJoin(b: Board, r: int, c: int, d: int, t: int, king: bool,
                        dr: int, dc: int, forward: bool, o: Jump)
    requires OnBoard(r, c) && (d == 1 || d == -1)
    requires (dc == 1 || dc == -1) && ((forward && dr == d) || (!forward && king && dr == -d))
    requires 0 < r + 2 * dr < 9 && o in JumpTo(b, r, c, dr, dc, t, forward)
    ensures o in JumpOptions(b, r, c, d, t, king)
  {
    assert o in JumpsToRow(b, r, c, dr, t, forward);
  }

  /** The recursion of copy_jump_state adds to the list exactly the ends of
      the capture chains from (r, c), or `b` itself when no jump applies. */
  lemma {:induction false} JumpsMembers(s: seq<Board>, b: Board, r: int, c: int, d: int, t: int, king: bool, x: Board)
    requires OnBoard(r, c) && (d == 1 || d == -1)
    ensures x in Jumps(s, b, r, c, d, t, king) <==> x in s || Final(b, r, c, d, t, king, x)
    decreases Count(b, SideOf(t + 1)), 1, 0
  {
    var opts := JumpOptions(b, r, c, d, t, king);
    if opts == [] {
      assert Jumps(s, b, r, c, d, t, king) == if b in s then s else s + [b];
      assert Final(b, r, c, d, t, king, x) <==> x == b;
    } else {
      var bound := Count(b, SideOf(t + 1));
      assert Jumps(s, b, r, c, d, t, king) == Chain(s, opts, d, t, bound);
      assert Final(b, r, c, d, t, king, x) <==> exists i | 0 <= i < |opts| ::
               Final(opts[i].board, opts[i].row, opts[i].col, d, t, opts[i].king, x);
      ChainMembers(s, opts, d, t, bound, x);
    }
  }

  lemma {:induction false} ChainMembers(s: seq<Board>, opts: seq<Jump>, d: int, t: int, bound: nat, x: Board)
    requires d == 1 || d == -1
    requires forall i | 0 <= i < |opts| :: OnBoard(opts[i].row, opts[i].col)
               && Count(opts[i].board, SideOf(t + 1)) < bound
    ensures x in Chain(s, opts, d, t, bound)
            <==> x in s || exists i | 0 <= i < |opts| ::
                             Final(opts[i].board, opts[i].row, opts[i].col, d, t, opts[i].king, x)
    decreases bound, 0, |opts|
  {
    if opts != [] {
      var o, rest := opts[0], opts[1..];
      var s1 := Jumps(s, o.board, o.row, o.col, d, t, o.king);
      assert Chain(s, opts, d, t, bound) == Chain(s1, rest, d, t, bound);
      JumpsMembers(s, o.board, o.row, o.col, d, t, o.king, x);
      ChainMembers(s1, rest, d, t, bound, x);
      AnyFinalCons(opts, d, t, x);
    }
  }

  /** Some chain from `opts` ends at `x` exactly when the first one does or
      some chain from the others does. */
  lemma AnyFinalCons(opts: seq<Jump>, d: int, t: int, x: Board)
    requires d == 1 || d == -1
    requires opts != [] && forall i | 0 <= i < |opts| :: OnBoard(opts[i].row, opts[i].col)
    ensures (exists i | 0 <= i < |opts| :: Final(opts[i].board, opts[i].row, opts[i].col, d, t, opts[i].king, x))
            <==> Final(opts[0].board, opts[0].row, opts[0].col, d, t, opts[0].king, x)
                 || exists i | 0 <= i < |opts[1..]| ::
                      Final(opts[1..][i].board, opts[1..][i].row, opts[1..][i].col, d, t, opts[1..][i].king, x)
  {
    var rest := opts[1..];
    if exists i | 0 <= i < |rest| :: Final(rest[i].board, rest[i].row, rest[i].col, d, t, rest[i].king, x) {
      var i :| 0 <= i < |rest| && Final(rest[i].board, rest[i].row, rest[i].col, d, t, rest[i].king, x);
      assert rest[i] == opts[i + 1];
    }
    if exists i | 0 <= i < |opts| :: Final(opts[i].board, opts[i].row, opts[i].col, d, t, opts[i].king, x) {
      var i :| 0 <= i < |opts| && Final(opts[i].board, opts[i].row, opts[i].col, d, t, opts[i].king, x);
      if i > 0 {
        assert rest[i - 1] == opts[i];
      }
    }
  }

  // ---------------------------------------------------------------------
  // What a capture does to the pieces

  /** A chain end never has more opponent pieces than its start, and it is
      the start itself exactly when no jump applies there. */
  lemma {:induction false} FinalCount(b: Board, r: int, c: int, d: int, t: int, king: bool, x: Board)
    requires OnBoard(r, c) && (d == 1 || d == -1)
    requires Final(b, r, c, d, t, king, x)
    ensures Count(x, SideOf(t + 1)) <= Count(b, SideOf(t + 1))
    ensures JumpOptions(b, r, c, d, t, king) == [] <==> x == b
    ensures x != b ==> Count(x, SideOf(t + 1)) < Count(b, SideOf(t + 1))
    decreases Count(b, SideOf(t + 1))
  {
    var opts := JumpOptions(b, r, c, d, t, king);
    if opts != [] {
      var i :| 0 <= i < |opts| && Final(opts[i].board, opts[i].row, opts[i].col, d, t, opts[i].king, x);
      FinalCount(opts[i].board, opts[i].row, opts[i].col, d, t, opts[i].king, x);
    }
  }

  /** One jump by a piece of the side to move keeps that side's count, takes
      exactly one opponent piece, and leaves a piece of the mover on the
      landing square. */
  lemma JumpEffect(b: Board, r: int, c: int, d: int, t: int, king: bool, o: Jump)
    requires OnBoard(r, c) && (d == 1 || d == -1) && Mine(At(b, r, c), t)
    requires o in JumpOptions(b, r, c, d, t, king)
    ensures Mine(At(o.board, o.row, o.col), t)
    ensures Count(o.board, SideOf(t)) == Count(b, SideOf(t))
    ensures Count(o.board, SideOf(t + 1)) == Count(b, SideOf(t + 1)) - 1
  {
    var dr, dc, forward := JumpOptionsSplit(b, r, c, d, t, king, o);
    JumpToEffect(b, r, c, dr, dc, t, forward, o);
  }

  lemma JumpToEffect(b: Board, r: int, c: int, dr: int, dc: int, t: int, forward: bool, o: Jump)
    requires OnBoard(r, c) && (dr == 1 || dr == -1) && (dc == 1 || dc == -1) && 0 < r + 2 * dr < 9
    requires Mine(At(b, r, c), t) && o in JumpTo(b, r, c, dr, dc, t, forward)
    ensures Mine(At(o.board, o.row, o.col), t)
    ensures Count(o.board, SideOf(t)) == Count(b, SideOf(t))
    ensures Count(o.board, SideOf(t + 1)) == Count(b, SideOf(t + 1)) - 1
  {
    var r1, c1, r2, c2 := r + dr, c + dc, r + 2 * dr, c + 2 * dc;
    var x := Arriving(b, r, c, r2, t, forward);
    assert o == Jump(r2, c2, Jumped(b, r, c, r1, c1, r2, c2, x), if forward then At(b, r, c) == KingOf(t) else true);
    JumpedMine(b, r, c, r1, c1, r2, c2, x, t);
  }

  lemma JumpedMine(b: Board, r: int, c: int, r1: int, c1: int, r2: int, c2: int, x: Cell, t: int)
    requires OnBoard(r, c) && OnBoard(r1, c1) && OnBoard(r2, c2)
    requires (r, c) != (r2, c2) && (r1, c1) != (r, c) && (r1, c1) != (r2, c2)
    requires At(b, r2, c2) == Empty && Mine(At(b, r, c), t) && Theirs(At(b, r1, c1), t) && Mine(x, t)
    ensures Mine(At(Jumped(b, r, c, r1, c1, r2, c2, x), r2, c2), t)
    ensures Count(Jumped(b, r, c, r1, c1, r2, c2, x), SideOf(t)) == Count(b, SideOf(t))
    ensures Count(Jumped(b, r, c, r1, c1, r2, c2, x), SideOf(t + 1)) == Count(b, SideOf(t + 1)) - 1
  {
    JumpedCount(b, r, c, r1, c1, r2, c2, x, SideOf(t));
    JumpedCount(b, r, c, r1, c1, r2, c2, x, SideOf(t + 1));
  }

  /** A whole capture keeps the mover's count; one with at least one jump
      strictly lowers the opponent's. */
  lemma {:induction false} CaptureEffect(b: Board, r: int, c: int, d: int, t: int, king: bool, x: Board)
    requires OnBoard(r, c) && (d == 1 || d == -1) && Mine(At(b, r, c), t)
    requires Final(b, r, c, d, t, king, x)
    ensures Count(x, SideOf(t)) == Count(b, SideOf(t))
    ensures JumpOptions(b, r, c, d, t, king) != [] ==> Count(x, SideOf(t + 1)) < Count(b, SideOf(t + 1))
    decreases Count(b, SideOf(t + 1))
  {
    var opts := JumpOptions(b, r, c, d, t, king);
    if opts != [] {
      var i :| 0 <= i < |opts| && Final(opts[i].board, opts[i].row, opts[i].col, d, t, opts[i].king, x);
      JumpEffect(b, r, c, d, t, king, opts[i]);
      CaptureEffect(opts[i].board, opts[i].row, opts[i].col, d, t, opts[i].king, x);
      FinalCount(opts[i].board, opts[i].row, opts[i].col, d, t, opts[i].king, x);
    }
  }

  /** A regular piece that jumps onto the far row is crowned there, and its
      capture ends: it continues as a regular piece, which has no forward
      jump left. */
  lemma CrowningEndsChain(b: Board, r: int, c: int, d: int, t: int, o: Jump)
    requires OnBoard(r, c) && (d == 1 || d == -1) && At(b, r, c) == Piece(t)
    requires o in JumpOptions(b, r, c, d, t, false) && (o.row == 1 || o.row == 8)
    ensures At(o.board, o.row, o.col) == KingOf(t)
    ensures !o.king && JumpOptions(o.board, o.row, o.col, d, t, o.king) == []
  {
    JumpOptionsSpec(b, r, c, d, t, false, o);
  }

  // ---------------------------------------------------------------------
  // get_succ against the move rule

  /** `x` results from moving the piece on `q` as a regular piece or as a
      king: a step, or the end of a capture chain (which is the board itself
      when no jump applies). */
  ghost predicate Reaches(b: Board, q: Square, d: int, t: int, king: bool, x: Board)
    requires d == 1 || d == -1
  {
    OnBoard(q.row, q.col)
    && (IsStep(b, q.row, q.col, d, t, king, x) || Final(b, q.row, q.col, d, t, king, x))
  }

  lemma {:induction false} ExpandMembers(s: seq<Board>, b: Board, locs: seq<Square>, d: int, t: int, king: bool, x: Board)
    requires d == 1 || d == -1
    requires forall i | 0 <= i < |locs| :: OnBoard(locs[i].row, locs[i].col)
    ensures x in Expand(s, b, locs, d, t, king)
            <==> x in s || exists i | 0 <= i < |locs| :: Reaches(b, locs[i], d, t, king, x)
    decreases |locs|
  {
    if locs != [] {
      var q := locs[0];
      var s1 := s + SimpleMoves(b, q.row, q.col, d, t, king);
      var s2 := Jumps(s1, b, q.row, q.col, d, t, king);
      SimpleMovesSpec(b, q.row, q.col, d, t, king, x);
      JumpsMembers(s1, b, q.row, q.col, d, t, king, x);
      ExpandMembers(s2, b, locs[1..], d, t, king, x);
      var rest := locs[1..];
      if exists i | 0 <= i < |rest| :: Reaches(b, rest[i], d, t, king, x) {
        var i :| 0 <= i < |rest| && Reaches(b, rest[i], d, t, king, x);
        assert rest[i] == locs[i + 1];
      }
      if exists i | 0 <= i < |locs| :: Reaches(b, locs[i], d, t, king, x) {
        var i :| 0 <= i < |locs| && Reaches(b, locs[i], d, t, king, x);
        if i > 0 {
          assert rest[i - 1] == locs[i];
        }
      }
    }
  }

  /** Moving the piece of the side to move that stands on (r, c) leads to
      `x`: as a regular piece if it is one, as a king if it is a king. */
  ghost predicate PieceMove(b: Board, t: int, r: int, c: int, x: Board) {
    && OnBoard(r, c)
    && (|| (At(b, r, c) == Piece(t) && Reaches(b, Sq(r, c), Forward(t), t, false, x))
        || (At(b, r, c) == KingOf(t) && Reaches(b, Sq(r, c), Forward(t), t, true, x)))
  }

  lemma CandidatesSound(b: Board, t: int, x: Board)
    requires x in Candidates(b, t)
    ensures exists r, c :: PieceMove(b, t, r, c, x)
  {
    var d := Forward(t);
    var men, kings := Locs(b, Piece(t)), Locs(b, KingOf(t));
    var e1 := Expand([], b, men, d, t, false);
    ExpandMembers([], b, men, d, t, false, x);
    ExpandMembers(e1, b, kings, d, t, true, x);
    if exists i | 0 <= i < |men| :: Reaches(b, men[i], d, t, false, x) {
      var i :| 0 <= i < |men| && Reaches(b, men[i], d, t, false, x);
      assert PieceMove(b, t, men[i].row, men[i].col, x);
    } else {
      var i :| 0 <= i < |kings| && Reaches(b, kings[i], d, t, true, x);
      assert PieceMove(b, t, kings[i].row, kings[i].col, x);
    }
  }

  lemma CandidatesComplete(b: Board, t: int, r: int, c: int, x: Board)
    requires PieceMove(b, t, r, c, x)
    ensures x in Candidates(b, t)
  {
    var d := Forward(t);
    var men, kings := Locs(b, Piece(t)), Locs(b, KingOf(t));
    var e1 := Expand([], b, men, d, t, false);
    ExpandMembers([], b, men, d, t, false, x);
    ExpandMembers(e1, b, kings, d, t, true, x);
    if At(b, r, c) == Piece(t) {
      var i :| 0 <= i < |men| && men[i] == Sq(r, c);
      assert Reaches(b, men[i], d, t, false, x);
    } else {
      var i :| 0 <= i < |kings| && kings[i] == Sq(r, c);
      assert Reaches(b, kings[i], d, t, true, x);
    }
  }

  // ---------------------------------------------------------------------
  // get_succ never lists a board twice

  lemma DistinctConcat<T>(a: seq<T>, b: seq<T>)
    requires Distinct(a) && Distinct(b)
    requires forall y | y in a :: y !in b
    ensures Distinct(a + b)
  {
    var l := a + b;
    forall i, j | 0 <= i < j < |l|
      ensures l[i] != l[j]
    {
      if j >= |a| {
        assert l[j] == b[j - |a|];
        if i < |a| {
          assert l[i] in a;
        } else {
          assert l[i] == b[i - |a|];
        }
      }
    }
  }

  /** What a step by a piece of the side to move changes: its origin empties,
      no piece is taken, and every other occupied square keeps its piece. */
  lemma StepFacts(b: Board, r: int, c: int, d: int, t: int, king: bool, m: Board)
    requires OnBoard(r, c) && (d == 1 || d == -1) && Mine(At(b, r, c), t)
    requires m in SimpleMoves(b, r, c, d, t, king)
    ensures At(m, r, c) == Empty
    ensures Count(m, SideOf(t)) == Count(b, SideOf(t)) && Count(m, SideOf(t + 1)) == Count(b, SideOf(t + 1))
    ensures forall i, j | OnBoard(i, j) && (i != r || j != c) && At(b, i, j) != Empty :: At(m, i, j) == At(b, i, j)
  {
    SimpleMovesSpec(b, r, c, d, t, king, m);
    var r2, c2 :| StepTo(b, r, c, d, t, king, r2, c2, m);
    var x := if r2 == r + d && (r2 == 1 || r2 == 8) then KingOf(t) else At(b, r, c);
    CountRelocate(b, r, c, r2, c2, x, SideOf(t));
    CountRelocate(b, r, c, r2, c2, x, SideOf(t + 1));
  }

  lemma StepsToRowDistinct(b: Board, r: int, c: int, r2: int, t: int, forward: bool)
    requires OnBoard(r, c) && (r2 == r + 1 || r2 == r - 1) && Mine(At(b, r, c), t)
    ensures Distinct(StepsToRow(b, r, c, r2, t, forward))
  {
    if 0 < r2 < 9 && c > 1 && At(b, r2, c - 1) == Empty && c < 8 && At(b, r2, c + 1) == Empty {
      var x := Arriving(b, r, c, r2, t, forward);
      var m1, m2 := Relocate(b, r, c, r2, c - 1, x), Relocate(b, r, c, r2, c + 1, x);
      assert At(m1, r2, c - 1) != At(m2, r2, c - 1);
    }
  }

  /** copy_simple_state lists each step once. */
  lemma SimpleMovesDistinct(b: Board, r: int, c: int, d: int, t: int, king: bool)
    requires OnBoard(r, c) && (d == 1 || d == -1) && Mine(At(b, r, c), t)
    ensures Distinct(SimpleMoves(b, r, c, d, t, king))
  {
    var fwd := StepsToRow(b, r, c, r + d, t, true);
    StepsToRowDistinct(b, r, c, r + d, t, true);
    if king {
      var bwd := StepsToRow(b, r, c, r - d, t, false);
      StepsToRowDistinct(b, r, c, r - d, t, false);
      forall y | y in fwd
        ensures y !in bwd
      {
        var c2 := StepsToRowShape(b, r, c, r + d, t, true, y);
        if y in bwd {
          var c3 := StepsToRowShape(b, r, c, r - d, t, false, y);
        }
      }
      DistinctConcat(fwd, bwd);
      assert SimpleMoves(b, r, c, d, t, king) == fwd + bwd;
    } else {
      assert SimpleMoves(b, r, c, d, t, king) == fwd;
    }
  }

  /** A step to row `r2` fills an empty square of that row and changes no
      other row except the origin's. */
  lemma StepsToRowShape(b: Board, r: int, c: int, r2: int, t: int, forward: bool, y: Board) returns (c2: int)
    requires OnBoard(r, c) && (r2 == r + 1 || r2 == r - 1) && Mine(At(b, r, c), t)
    requires y in StepsToRow(b, r, c, r2, t, forward)
    ensures OnBoard(r2, c2) && At(b, r2, c2) == Empty && At(y, r2, c2) != Empty
    ensures forall i, j | OnBoard(i, j) && i != r2 && i != r :: At(y, i, j) == At(b, i, j)
  {
    var x := Arriving(b, r, c, r2, t, forward);
    if c > 1 && At(b, r2, c - 1) == Empty && y == Relocate(b, r, c, r2, c - 1, x) {
      c2 := c - 1;
    } else {
      c2 := c + 1;
    }
  }

  /** `y` agrees with `b` on every square of `pend`. */
  ghost predicate Kept(y: Board, b: Board, pend: seq<Square>) {
    forall k | 0 <= k < |pend| && OnBoard(pend[k].row, pend[k].col) ::
      At(y, pend[k].row, pend[k].col) == At(b, pend[k].row, pend[k].col)
  }

  /** The invariant of get_succ's loops while the squares `pend` are still to
      be visited: no repeats, and every board listed is the input, or has
      fewer opponent pieces, or leaves the pending squares as they were. */
  ghost predicate Fresh(s: seq<Board>, b: Board, t: int, pend: seq<Square>) {
    && Distinct(s)
    && forall y | y in s :: y == b || Count(y, SideOf(t + 1)) < Count(b, SideOf(t + 1)) || Kept(y, b, pend)
  }

  lemma KeptTail(y: Board, b: Board, q: Square, pend: seq<Square>)
    requires Kept(y, b, [q] + pend)
    ensures Kept(y, b, pend)
  {
    forall k | 0 <= k < |pend| && OnBoard(pend[k].row, pend[k].col)
      ensures At(y, pend[k].row, pend[k].col) == At(b, pend[k].row, pend[k].col)
    {
      assert ([q] + pend)[k + 1] == pend[k];
    }
  }

  /** Visiting the pending square `q`: its steps are new and keep the squares
      still pending; its captures take a piece or are the input itself. */
  lemma {:induction false} VisitFresh(s: seq<Board>, b: Board, q: Square, pend: seq<Square>, d: int, t: int, king: bool)
    requires d == 1 || d == -1
    requires OnBoard(q.row, q.col) && Mine(At(b, q.row, q.col), t)
    requires forall k | 0 <= k < |pend| :: OnBoard(pend[k].row, pend[k].col) && At(b, pend[k].row, pend[k].col) != Empty
    requires q !in pend
    requires Fresh(s, b, t, [q] + pend)
    ensures Fresh(Jumps(s + SimpleMoves(b, q.row, q.col, d, t, king), b, q.row, q.col, d, t, king), b, t, pend)
  {
    var ms := SimpleMoves(b, q.row, q.col, d, t, king);
    var opp := SideOf(t + 1);
    SimpleMovesDistinct(b, q.row, q.col, d, t, king);
    forall m | m in ms
      ensures m !in s && Count(m, opp) == Count(b, opp) && Kept(m, b, pend)
    {
      StepFacts(b, q.row, q.col, d, t, king, m);
      forall y | y in s
        ensures y != m
      {
        if y != b && Count(y, opp) >= Count(b, opp) {
          assert ([q] + pend)[0] == q;
          assert At(y, q.row, q.col) == At(b, q.row, q.col);
        }
      }
      forall k | 0 <= k < |pend| && OnBoard(pend[k].row, pend[k].col)
        ensures At(m, pend[k].row, pend[k].col) == At(b, pend[k].row, pend[k].col)
      {
        assert pend[k] != q;
      }
    }
    forall y | y in s
      ensures y == b || Count(y, opp) < Count(b, opp) || Kept(y, b, pend)
    {
      if y != b && Count(y, opp) >= Count(b, opp) {
        KeptTail(y, b, q, pend);
      }
    }
    var s1 := s + ms;
    DistinctConcat(s, ms);
    var s2 := Jumps(s1, b, q.row, q.col, d, t, king);
    forall y | y in s2
      ensures y == b || Count(y, opp) < Count(b, opp) || Kept(y, b, pend)
    {
      JumpsMembers(s1, b, q.row, q.col, d, t, king, y);
      if y !in s1 {
        FinalCount(b, q.row, q.col, d, t, king, y);
      }
    }
  }

  lemma DistinctTail<T>(q: T, p: seq<T>)
    requires Distinct([q] + p)
    ensures Distinct(p) && q !in p
  {
    var l := [q] + p;
    forall i | 0 <= i < |p|
      ensures p[i] == l[i + 1] && p[i] != q
    {
      assert l[0] == q;
    }
  }

  lemma {:induction false} ExpandFresh(s: seq<Board>, b: Board, locs: seq<Square>, later: seq<Square>,
                                      d: int, t: int, king: bool)
    requires d == 1 || d == -1
    requires forall i | 0 <= i < |locs| :: OnBoard(locs[i].row, locs[i].col) && Mine(At(b, locs[i].row, locs[i].col), t)
    requires forall k | 0 <= k < |later| :: OnBoard(later[k].row, later[k].col) && At(b, later[k].row, later[k].col) != Empty
    requires Distinct(locs + later)
    requires Fresh(s, b, t, locs + later)
    ensures Fresh(Expand(s, b, locs, d, t, king), b, t, later)
    decreases |locs|
  {
    if locs == [] {
      assert locs + later == later;
    } else {
      var q, rest := locs[0], locs[1..];
      assert locs + later == [q] + (rest + later);
      var pend := rest + later;
      forall k | 0 <= k < |pend|
        ensures OnBoard(pend[k].row, pend[k].col) && At(b, pend[k].row, pend[k].col) != Empty
      {
        if k < |rest| {
          assert pend[k] == locs[k + 1];
        } else {
          assert pend[k] == later[k - |rest|];
        }
      }
      DistinctTail(q, pend);
      VisitFresh(s, b, q, pend, d, t, king);
      var s2 := Jumps(s + SimpleMoves(b, q.row, q.col, d, t, king), b, q.row, q.col, d, t, king);
      ExpandFresh(s2, b, rest, later, d, t, king);
    }
  }

  lemma RowMajorDistinct(l: seq<Square>)
    requires RowMajor(l)
    ensures Distinct(l)
  {
  }

  /** The list get_succ builds has no repeats: the program's `not in` guard
      only ever fires for the input board itself. */
  lemma CandidatesDistinct(b: Board, t: int)
    ensures Distinct(Candidates(b, t))
  {
    var d := Forward(t);
    var men, kings := Locs(b, Piece(t)), Locs(b, KingOf(t));
    RowMajorDistinct(men);
    RowMajorDistinct(kings);
    forall y | y in men
      ensures y !in kings
    {
      var i :| 0 <= i < |men| && men[i] == y;
      assert At(b, y.row, y.col) == Piece(t);
    }
    DistinctConcat(men, kings);
    ExpandFresh([], b, men, kings, d, t, false);
    var e1 := Expand([], b, men, d, t, false);
    assert kings + [] == kings;
    ExpandFresh(e1, b, kings, [], d, t, true);
  }

  /** get_succ lists each successor once and never the input board. */
  lemma GetSuccDistinct(b: Board, t: int)
    ensures Distinct(GetSucc(b, t)) && b !in GetSucc(b, t)
  {
    CandidatesDistinct(b, t);
    RemoveFirstDistinct(Candidates(b, t), b);
  }

  /** A legal move always changes the board. */
  lemma LegalMoveChanges(b: Board, t: int, r: int, c: int, x: Board)
    requires LegalMove(b, t, r, c, x)
    ensures x != b
  {
    var king := At(b, r, c) == KingOf(t);
    var d := Forward(t);
    if IsStep(b, r, c, d, t, king, x) {
      var r2, c2 :| StepTo(b, r, c, d, t, king, r2, c2, x);
      assert At(x, r, c) != At(b, r, c);
    } else {
      FinalCount(b, r, c, d, t, king, x);
    }
  }

  /** get_succ is exactly the set of boards one legal move away. */
  lemma GetSuccSpec(b: Board, t: int, x: Board)
    ensures x in GetSucc(b, t) <==> IsSuccessor(b, t, x)
  {
    var cs := Candidates(b, t);
    GetSuccDistinct(b, t);
    if x in GetSucc(b, t) {
      RemoveFirstKeeps(cs, b, x);
      CandidatesSound(b, t, x);
      var r, c :| PieceMove(b, t, r, c, x);
      var king := At(b, r, c) == KingOf(t);
      if !IsStep(b, r, c, Forward(t), t, king, x) {
        FinalCount(b, r, c, Forward(t), t, king, x);
      }
      assert LegalMove(b, t, r, c, x);
    }
    if IsSuccessor(b, t, x) {
      var r, c :| LegalMove(b, t, r, c, x);
      LegalMoveChanges(b, t, r, c, x);
      CandidatesComplete(b, t, r, c, x);
      RemoveFirstKeeps(cs, b, x);
    }
  }

  /** No move loses a piece of the side that makes it, and none adds an
      opponent piece. */
  lemma SuccessorCounts(b: Board, t: int, x: Board)
    requires IsSuccessor(b, t, x)
    ensures Count(x, SideOf(t)) == Count(b, SideOf(t))
    ensures Count(x, SideOf(t + 1)) <= Count(b, SideOf(t + 1))
  {
    var r, c :| LegalMove(b, t, r, c, x);
    var king := At(b, r, c) == KingOf(t);
    var d := Forward(t);
    if IsStep(b, r, c, d, t, king, x) {
      SimpleMovesSpec(b, r, c, d, t, king, x);
      StepFacts(b, r, c, d, t, king, x);
    } else {
      CaptureEffect(b, r, c, d, t, king, x);
    }
  }
}

=== FILE: moves.dfy ===
/** Successor generation of checkers_ai.py: get_locs, copy_simple_state,
    copy_jump_state and get_succ. Every function returns the successor boards
    in the exact order the program appends them. */
module Moves {
  import opened Pieces
  import opened Grid

  datatype Square = Sq(row: int, col: int)

  /** No element occurs twice. */
  predicate Distinct<T(==)>(s: seq<T>) {
    forall i, j | 0 <= i < j < |s| :: s[i] != s[j]
  }

  lemma DistinctAppend<T>(s: seq<T>, y: T)
    ensures Distinct(s) && y !in s ==> Distinct(s + [y])
  {
  }

  lemma DistinctCons<T>(y: T, s: seq<T>)
    ensures Distinct(s) && y !in s ==> Distinct([y] + s)
  {
    var l := [y] + s;
    assert forall i | 0 < i < |l| :: l[i] == s[i - 1];
  }

  /** Row direction of the side to move: +1 on even turns, -1 on odd turns. */
  function Forward(t: int): int {
    if t % 2 == 0 then 1 else -1
  }

  /** `x` is a piece or king of the side to move on turn `t`. */
  predicate Mine(x: Cell, t: int) {
    x == Piece(t) || x == KingOf(t)
  }

  /** `x` is a piece or king of the opponent of the side to move on turn `t`. */
  predicate Theirs(x: Cell, t: int) {
    x == Piece(t + 1) || x == KingOf(t + 1)
  }

  /** Row-major position of a square, 0 for (1, 1) up to 63 for (8, 8). */
  function Index(q: Square): int {
    (q.row - 1) * 8 + q.col - 1
  }

  /** Strictly increasing in row-major position, hence without repeats. */
  predicate RowMajor(l: seq<Square>) {
    forall i, j | 0 <= i < j < |l| :: Index(l[i]) < Index(l[j])
  }

  lemma RowMajorConcat(l1: seq<Square>, l2: seq<Square>)
    requires RowMajor(l1) && RowMajor(l2)
    requires forall i, j | 0 <= i < |l1| && 0 <= j < |l2| :: Index(l1[i]) < Index(l2[j])
    ensures RowMajor(l1 + l2)
  {
    var l := l1 + l2;
    assert forall i | |l1| <= i < |l| :: l[i] == l2[i - |l1|];
  }

  /** The inner loop of get_locs: the squares (r, c), (r, c + 1), ... whose
      cell in `row` holds `x`, left to right. */
  function RowLocs(row: seq<Cell>, r: int, c: int, x: Cell): (l: seq<Square>)
    ensures |l| <= |row|
    ensures forall i | 0 <= i < |l| :: l[i].row == r && c <= l[i].col < c + |row| && row[l[i].col - c] == x
    decreases |row|
  {
    if row == [] then []
    else (if row[0] == x then [Sq(r, c)] else []) + RowLocs(row[1..], r, c + 1, x)
  }

  lemma {:induction false} RowLocsComplete(row: seq<Cell>, r: int, c: int, x: Cell, j: int)
    requires c <= j < c + |row| && row[j - c] == x
    ensures Sq(r, j) in RowLocs(row, r, c, x)
    decreases |row|
  {
    var head, tail := (if row[0] == x then [Sq(r, c)] else []), RowLocs(row[1..], r, c + 1, x);
    assert RowLocs(row, r, c, x) == head + tail;
    if j > c {
      RowLocsComplete(row[1..], r, c + 1, x, j);
      assert Sq(r, j) in tail;
    }
  }

  lemma {:induction false} RowLocsSorted(row: seq<Cell>, r: int, c: int, x: Cell)
    ensures RowMajor(RowLocs(row, r, c, x))
    decreases |row|
  {
    if row != [] {
      RowLocsSorted(row[1..], r, c + 1, x);
      var head: seq<Square> := if row[0] == x then [Sq(r, c)] else [];
      RowMajorConcat(head, RowLocs(row[1..], r, c + 1, x));
    }
  }

  /** The outer loop of get_locs over rows r, r + 1, ... of `rows`. */
  function RowsLocs(rows: seq<Row>, r: int, x: Cell): (l: seq<Square>)
    ensures |l| <= 8 * |rows|
    ensures forall i | 0 <= i < |l| :: r <= l[i].row < r + |rows| && 1 <= l[i].col <= 8
              && rows[l[i].row - r][l[i].col - 1] == x
    decreases |rows|
  {
    if rows == [] then []
    else RowLocs(rows[0], r, 1, x) + RowsLocs(rows[1..], r + 1, x)
  }

  lemma {:induction false} RowsLocsComplete(rows: seq<Row>, r: int, x: Cell, i: int, j: int)
    requires r <= i < r + |rows| && 1 <= j <= 8 && rows[i - r][j - 1] == x
    ensures Sq(i, j) in RowsLocs(rows, r, x)
    decreases |rows|
  {
    var head, tail := RowLocs(rows[0], r, 1, x), RowsLocs(rows[1..], r + 1, x);
    assert RowsLocs(rows, r, x) == head + tail;
    if i == r {
      RowLocsComplete(rows[0], r, 1, x, j);
      assert Sq(i, j) in head;
    } else {
      assert rows[1..][i - (r + 1)] == rows[i - r];
      RowsLocsComplete(rows[1..], r + 1, x, i, j);
      assert Sq(i, j) in tail;
    }
  }

  lemma {:induction false} RowsLocsSorted(rows: seq<Row>, r: int, x: Cell)
    ensures RowMajor(RowsLocs(rows, r, x))
    decreases |rows|
  {
    if rows != [] {
      RowLocsSorted(rows[0], r, 1, x);
      RowsLocsSorted(rows[1..], r + 1, x);
      RowMajorConcat(RowLocs(rows[0], r, 1, x), RowsLocs(rows[1..], r + 1, x));
    }
  }

  lemma LocsComplete(b: Board, x: Cell)
    ensures forall r, c | OnBoard(r, c) && At(b, r, c) == x :: Sq(r, c) in RowsLocs(b, 1, x)
  {
    forall r, c | OnBoard(r, c) && At(b, r, c) == x
      ensures Sq(r, c) in RowsLocs(b, 1, x)
    {
      RowsLocsComplete(b, 1, x, r, c);
    }
  }

  /** The squares holding `x`, in row-major order (one half of get_locs). */
  function Locs(b: Board, x: Cell): (l: seq<Square>)
    ensures forall i | 0 <= i < |l| :: OnBoard(l[i].row, l[i].col) && At(b, l[i].row, l[i].col) == x
    ensures forall r, c | OnBoard(r, c) && At(b, r, c) == x :: Sq(r, c) in l
    ensures RowMajor(l)
    ensures |l| <= 64
  {
    RowsLocsSorted(b, 1, x);
    LocsComplete(b, x);
    RowsLocs(b, 1, x)
  }

  lemma SameEmptiness<T>(a: seq<T>, b: seq<T>)
    requires forall q :: q in a <==> q in b
    ensures a == [] <==> b == []
  {
    if a != [] {
      assert a[0] in b;
    }
    if b != [] {
      assert b[0] in a;
    }
  }

  /** Two row-major lists with the same elements are equal. */
  lemma {:induction false} RowMajorUnique(l1: seq<Square>, l2: seq<Square>)
    requires RowMajor(l1) && RowMajor(l2)
    requires forall q :: q in l1 <==> q in l2
    ensures l1 == l2
    decreases |l1|
  {
    SameEmptiness(l1, l2);
    if l1 != [] {
      SameHead(l1, l2);
      SameTail(l1, l2);
      assert RowMajor(l1[1..]) && RowMajor(l2[1..]);
      RowMajorUnique(l1[1..], l2[1..]);
      assert l1 == [l1[0]] + l1[1..] && l2 == [l2[0]] + l2[1..];
    }
  }

  /** The first element of a row-major list is its least one. */
  lemma SameHead(l1: seq<Square>, l2: seq<Square>)
    requires RowMajor(l1) && RowMajor(l2) && l1 != [] && l2 != []
    requires forall q :: q in l1 <==> q in l2
    ensures l1[0] == l2[0]
  {
    assert l2[0] in l1 && l1[0] in l2;
    var i :| 0 <= i < |l1| && l1[i] == l2[0];
    var j :| 0 <= j < |l2| && l2[j] == l1[0];
    assert i == 0;
  }

  lemma SameTail(l1: seq<Square>, l2: seq<Square>)
    requires RowMajor(l1) && RowMajor(l2) && l1 != [] && l2 != [] && l1[0] == l2[0]
    requires forall q :: q in l1 <==> q in l2
    ensures forall q :: q in l1[1..] <==> q in l2[1..]
  {
    forall q | q in l1[1..] ensures q in l2[1..] {
      TailMember(l1, l2, q);
    }
    forall q | q in l2[1..] ensures q in l1[1..] {
      TailMember(l2, l1, q);
    }
  }

  lemma TailMember(l1: seq<Square>, l2: seq<Square>, q: Square)
    requires RowMajor(l1) && RowMajor(l2) && l1 != [] && l2 != [] && l1[0] == l2[0]
    requires forall q :: q in l1 <==> q in l2
    requires q in l1[1..]
    ensures q in l2[1..]
  {
    var k :| 0 <= k < |l1| - 1 && l1[1..][k] == q;
    assert Index(l1[0]) < Index(l1[k + 1]) && q in l2;
    var m :| 0 <= m < |l2| && l2[m] == q;
    assert m != 0 && l2[1..][m - 1] == q;
  }

  /** get_locs' list is the only row-major list of exactly the squares
      holding `x`. */
  lemma LocsUnique(b: Board, x: Cell, l: seq<Square>)
    requires forall i | 0 <= i < |l| :: OnBoard(l[i].row, l[i].col) && At(b, l[i].row, l[i].col) == x
    requires forall r, c | OnBoard(r, c) && At(b, r, c) == x :: Sq(r, c) in l
    requires RowMajor(l)
    ensures Locs(b, x) == l
  {
    var m := Locs(b, x);
    forall q ensures q in m <==> q in l {
      assert q == Sq(q.row, q.col);
    }
    RowMajorUnique(m, l);
  }

  /** get_locs: the regular pieces and the kings of the side to move. */
  function GetLocs(b: Board, t: int): (seq<Square>, seq<Square>) {
    (Locs(b, Piece(t)), Locs(b, KingOf(t)))
  }

  /** The cell a moving piece leaves behind on its destination row `r2`: a
      forward move onto row 1 or 8 crowns it, any other move keeps it. */
  function Arriving(b: Board, r: int, c: int, r2: int, t: int, forward: bool): Cell
    requires OnBoard(r, c)
  {
    if forward && (r2 == 1 || r2 == 8) then KingOf(t) else At(b, r, c)
  }

  /** One row-half of copy_simple_state: steps from (r, c) to the empty squares
      of row `r2` at column c - 1, then c + 1. */
  function StepsToRow(b: Board, r: int, c: int, r2: int, t: int, forward: bool): seq<Board>
    requires OnBoard(r, c) && (r2 == r + 1 || r2 == r - 1)
  {
    if r2 > 0 && r2 < 9 then
      var x := Arriving(b, r, c, r2, t, forward);
      (if c > 1 && At(b, r2, c - 1) == Empty then [Relocate(b, r, c, r2, c - 1, x)] else [])
      + (if c < 8 && At(b, r2, c + 1) == Empty then [Relocate(b, r, c, r2, c + 1, x)] else [])
    else []
  }

  /** copy_simple_state: forward steps, then (kings only) backward steps. */
  function SimpleMoves(b: Board, r: int, c: int, d: int, t: int, king: bool): (ms: seq<Board>)
    requires OnBoard(r, c) && (d == 1 || d == -1)
    ensures |ms| <= 4
  {
    StepsToRow(b, r, c, r + d, t, true) + (if king then StepsToRow(b, r, c, r - d, t, false) else [])
  }

  /** A single jump: where the piece lands, the board after it, and whether
      the chain goes on with king moves. */
  datatype Jump = Jump(row: int, col: int, board: Board, king: bool)

  /** The board after jumping from (r, c) over (r1, c1) to (r2, c2): the
      landing square receives `x`, the origin and the captured square empty. */
  function Jumped(b: Board, r: int, c: int, r1: int, c1: int, r2: int, c2: int, x: Cell): (m: Board)
    requires OnBoard(r, c) && OnBoard(r1, c1) && OnBoard(r2, c2)
    requires (r, c) != (r2, c2) && (r1, c1) != (r, c) && (r1, c1) != (r2, c2)
    ensures At(m, r2, c2) == x && At(m, r, c) == Empty && At(m, r1, c1) == Empty
    ensures forall i, j | OnBoard(i, j) && (i, j) != (r, c) && (i, j) != (r1, c1) && (i, j) != (r2, c2) ::
              At(m, i, j) == At(b, i, j)
  {
    Set(Relocate(b, r, c, r2, c2, x), r1, c1, Empty)
  }

  lemma JumpedCount(b: Board, r: int, c: int, r1: int, c1: int, r2: int, c2: int, x: Cell, s: Side)
    requires OnBoard(r, c) && OnBoard(r1, c1) && OnBoard(r2, c2)
    requires (r, c) != (r2, c2) && (r1, c1) != (r, c) && (r1, c1) != (r2, c2)
    requires At(b, r2, c2) == Empty
    ensures Count(Jumped(b, r, c, r1, c1, r2, c2, x), s)
            == Count(b, s) - Owns(At(b, r, c), s) - Owns(At(b, r1, c1), s) + Owns(x, s)
  {
    CountRelocate(b, r, c, r2, c2, x, s);
    CountSet(Relocate(b, r, c, r2, c2, x), r1, c1, Empty, s);
  }

  /** One of the four blocks of copy_jump_state: the jump from (r, c) in row
      direction `dr` and column direction `dc`, if the adjacent diagonal square
      holds an opponent piece and the square beyond it is empty. */
  function JumpTo(b: Board, r: int, c: int, dr: int, dc: int, t: int, forward: bool): (js: seq<Jump>)
    requires OnBoard(r, c) && (dr == 1 || dr == -1) && (dc == 1 || dc == -1)
    requires 0 < r + 2 * dr < 9
    ensures |js| <= 1
    ensures forall i | 0 <= i < |js| :: OnBoard(js[i].row, js[i].col)
              && Count(js[i].board, SideOf(t + 1)) < Count(b, SideOf(t + 1))
  {
    var r1, c1, r2, c2 := r + dr, c + dc, r + 2 * dr, c + 2 * dc;
    if (if dc < 0 then c > 2 else c < 7) && Theirs(At(b, r1, c1), t) && At(b, r2, c2) == Empty then
      var x := Arriving(b, r, c, r2, t, forward);
      var m := Jumped(b, r, c, r1, c1, r2, c2, x);
      JumpedCount(b, r, c, r1, c1, r2, c2, x, SideOf(t + 1));
      [Jump(r2, c2, m, if forward then At(b, r, c) == KingOf(t) else true)]
    else []
  }

  /** The jumps from (r, c) to row r + 2 * dr, when that row is on the board:
      over column c - 1, then over column c + 1. */
  function JumpsToRow(b: Board, r: int, c: int, dr: int, t: int, forward: bool): (js: seq<Jump>)
    requires OnBoard(r, c) && (dr == 1 || dr == -1)
    ensures |js| <= 2
    ensures forall i | 0 <= i < |js| :: OnBoard(js[i].row, js[i].col)
              && Count(js[i].board, SideOf(t + 1)) < Count(b, SideOf(t + 1))
  {
    if 0 < r + 2 * dr < 9 then JumpTo(b, r, c, dr, -1, t, forward) + JumpTo(b, r, c, dr, 1, t, forward)
    else []
  }

  /** The jumps available from (r, c), in the program's order: forward left,
      forward right, then (kings only) backward left, backward right. */
  function JumpOptions(b: Board, r: int, c: int, d: int, t: int, king: bool): (js: seq<Jump>)
    requires OnBoard(r, c) && (d == 1 || d == -1)
    ensures |js| <= 4
    ensures forall i | 0 <= i < |js| :: OnBoard(js[i].row, js[i].col)
              && Count(js[i].board, SideOf(t + 1)) < Count(b, SideOf(t + 1))
  {
    JumpsToRow(b, r, c, d, t, true) + (if king then JumpsToRow(b, r, c, -d, t, false) else [])
  }

  /** copy_jump_state: follow every jump from (r, c) depth-first and append
      each board where no further jump applies, unless the list already
      holds it. Called on a square with no jump at all, it appends `b`. */
  function Jumps(s: seq<Board>, b: Board, r: int, c: int, d: int, t: int, king: bool): (res: seq<Board>)
    requires OnBoard(r, c) && (d == 1 || d == -1)
    ensures |s| <= |res| && res[..|s|] == s
    ensures Distinct(s) ==> Distinct(res)
    decreases Count(b, SideOf(t + 1)), 1, 0
  {
    var opts := JumpOptions(b, r, c, d, t, king);
    if opts == [] then
      if b in s then s
      else
        DistinctAppend(s, b);
        s + [b]
    else Chain(s, opts, d, t, Count(b, SideOf(t + 1)))
  }

  /** The recursive calls of copy_jump_state, one per available jump, in order. */
  function Chain(s: seq<Board>, opts: seq<Jump>, d: int, t: int, bound: nat): (res: seq<Board>)
    requires d == 1 || d == -1
    requires forall i | 0 <= i < |opts| :: OnBoard(opts[i].row, opts[i].col)
               && Count(opts[i].board, SideOf(t + 1)) < bound
    ensures |s| <= |res| && res[..|s|] == s
    ensures Distinct(s) ==> Distinct(res)
    decreases bound, 0, |opts|
  {
    if opts == [] then s
    else
      var o := opts[0];
      Chain(Jumps(s, o.board, o.row, o.col, d, t, o.king), opts[1..], d, t, bound)
  }

  /** The body of get_succ's loops: simple moves then jumps for each square. */
  function Expand(s: seq<Board>, b: Board, locs: seq<Square>, d: int, t: int, king: bool): (res: seq<Board>)
    requires d == 1 || d == -1
    requires forall i | 0 <= i < |locs| :: OnBoard(locs[i].row, locs[i].col)
    ensures |s| <= |res| && res[..|s|] == s
    decreases |locs|
  {
    if locs == [] then s
    else
      var q := locs[0];
      var s1 := s + SimpleMoves(b, q.row, q.col, d, t, king);
      var s2 := Jumps(s1, b, q.row, q.col, d, t, king);
      var res := Expand(s2, b, locs[1..], d, t, king);
      assert s1[..|s|] == s;
      assert s2[..|s|] == s1[..|s|];
      assert res[..|s|] == s2[..|s|];
      res
  }

  /** Python's `list.remove` guarded by `in`: drop the first occurrence of
      `x`, if any, keeping the order of the rest. */
  function RemoveFirst<T(==)>(s: seq<T>, x: T): (res: seq<T>)
    ensures x !in s ==> res == s
    ensures multiset(res) == multiset(s) - multiset{x}
  {
    if s == [] then []
    else
      assert s == [s[0]] + s[1..];
      if s[0] == x then s[1..]
      else [s[0]] + RemoveFirst(s[1..], x)
  }

  /** The removal deletes the first occurrence of `x` and keeps the rest of
      the list, before and after it, in order. */
  lemma {:induction false} RemoveFirstOrder<T>(s: seq<T>, x: T) returns (i: int)
    requires x in s
    ensures 0 <= i < |s| && s[i] == x && x !in s[..i]
    ensures RemoveFirst(s, x) == s[..i] + s[i + 1..]
  {
    if s[0] == x {
      i := 0;
    } else {
      RemoveFirstSkips(s, x);
      var k := RemoveFirstOrder(s[1..], x);
      i := k + 1;
      ConsSlices(s, k);
    }
  }

  /** When the head is not `x`, the removal keeps the head and works on the tail. */
  lemma RemoveFirstSkips<T>(s: seq<T>, x: T)
    requires x in s && s[0] != x
    ensures x in s[1..] && RemoveFirst(s, x) == [s[0]] + RemoveFirst(s[1..], x)
  {
    var j :| 0 <= j < |s| && s[j] == x;
    assert s[1..][j - 1] == x;
  }

  lemma ConsSlices<T>(s: seq<T>, k: int)
    requires 0 <= k < |s| - 1
    ensures s[..k + 1] == [s[0]] + s[1..][..k]
    ensures [s[0]] + (s[1..][..k] + s[1..][k + 1..]) == s[..k + 1] + s[k + 2..]
  {
    assert s[k + 2..] == s[1..][k + 1..];
  }

  /** On a list without repeats the removal leaves no copy of `x` behind. */
  lemma {:induction false} RemoveFirstDistinct<T>(s: seq<T>, x: T)
    requires Distinct(s)
    ensures Distinct(RemoveFirst(s, x)) && x !in RemoveFirst(s, x)
  {
    if s != [] {
      var tl := s[1..];
      assert forall i | 0 <= i < |tl| :: tl[i] == s[i + 1];
      assert Distinct(tl) && s[0] !in tl;
      if s[0] != x {
        var rest := RemoveFirst(tl, x);
        RemoveFirstDistinct(tl, x);
        RemoveFirstKeeps(tl, x, s[0]);
        DistinctCons(s[0], rest);
        assert RemoveFirst(s, x) == [s[0]] + rest;
      }
    }
  }

  /** Removal touches no element other than `x`. */
  lemma RemoveFirstKeeps<T>(s: seq<T>, x: T, y: T)
    requires y != x
    ensures y in RemoveFirst(s, x) <==> y in s
  {
    assert multiset(RemoveFirst(s, x))[y] == multiset(s)[y];
  }

  /** The list before get_succ drops the input board. */
  function Candidates(b: Board, t: int): seq<Board> {
    var d, locs := Forward(t), GetLocs(b, t);
    Expand(Expand([], b, locs.0, d, t, false), b, locs.1, d, t, true)
  }

  /** get_succ: the boards reachable by one move of the side to move. */
  function GetSucc(b: Board, t: int): seq<Board> {
    RemoveFirst(Candidates(b, t), b)
  }
}

=== FILE: opening.dfy ===
/** The opening position of checkers_info.py seen by get_succ: red moves
    first (turn 0), no capture is possible, and the seven moves are the
    single steps of the row-3 pieces onto row 4. */
module Opening {
  import opened Pieces
  import opened Grid
  import opened Moves
  import opened Legality

  /** The red piece on (3, c) steps to (4, c2). */
  function Advance(c: int, c2: int): Board
    requires OnBoard(3, c) && OnBoard(4, c2)
  {
    Relocate(Start, 3, c, 4, c2, Man(Red))
  }

  /** The origin and target columns of the seven first moves, left to right. */
  const FrontSteps: seq<(int, int)> := [(2, 1), (2, 3), (4, 3), (4, 5), (6, 5), (6, 7), (8, 7)]

  /** (c, c2) is a diagonal step from a row-3 square with a piece to a
      square of row 4. */
  predicate FrontStep(c: int, c2: int) {
    (c == 2 || c == 4 || c == 6 || c == 8) && (c2 == c - 1 || c2 == c + 1) && 1 <= c2 <= 8
  }

  lemma FrontStepsListed(c: int, c2: int)
    ensures FrontStep(c, c2) <==> (c, c2) in FrontSteps
  {
  }

  /** The seven first moves, in the order of FrontSteps. */
  function FirstMoves(): (ms: seq<Board>)
    ensures |ms| == 7
    ensures forall i | 0 <= i < 7 :: ms[i] == Advance(FrontSteps[i].0, FrontSteps[i].1)
  {
    seq(7, i requires 0 <= i < 7 => Advance(FrontSteps[i].0, FrontSteps[i].1))
  }

  /** The square diagonally ahead of a red piece in the opening position
      never holds a black piece, so none of its jumps applies. */
  lemma NoOpeningJumpTo(r: int, c: int, dc: int)
    requires OnBoard(r, c) && At(Start, r, c) == Man(Red) && (dc == 1 || dc == -1)
    requires 0 < r + 2 < 9
    ensures JumpTo(Start, r, c, 1, dc, 0, true) == []
  {
    if (if dc < 0 then c > 2 else c < 7) {
      StartRule(r + 1, c + dc);
      assert !Theirs(At(Start, r + 1, c + dc), 0);
    }
  }

  /** No red piece of the opening position has a jump. */
  lemma NoOpeningJump(r: int, c: int)
    requires OnBoard(r, c) && At(Start, r, c) == Man(Red)
    ensures JumpOptions(Start, r, c, 1, 0, false) == []
  {
    if 0 < r + 2 < 9 {
      NoOpeningJumpTo(r, c, -1);
      NoOpeningJumpTo(r, c, 1);
    }
  }

  /** Every step of a red piece in the opening position is a row-3 piece
      advancing onto row 4. */
  lemma OpeningStep(r: int, c: int, r2: int, c2: int, x: Board)
    requires OnBoard(r, c) && At(Start, r, c) == Man(Red)
    requires StepTo(Start, r, c, 1, 0, false, r2, c2, x)
    ensures r == 3 && r2 == 4 && FrontStep(c, c2) && x == Advance(c, c2)
  {
    StartRule(r, c);
    StartRule(r2, c2);
  }

  /** A board follows the opening position exactly when it is one of the
      seven advances. */
  lemma OpeningSuccessors(x: Board)
    ensures IsSuccessor(Start, 0, x) <==> exists c, c2 :: FrontStep(c, c2) && x == Advance(c, c2)
  {
    if IsSuccessor(Start, 0, x) {
      var r, c :| LegalMove(Start, 0, r, c, x);
      StartRule(r, c);
      NoOpeningJump(r, c);
      var r2, c2 :| StepTo(Start, r, c, 1, 0, false, r2, c2, x);
      OpeningStep(r, c, r2, c2, x);
    }
    if exists c, c2 :: FrontStep(c, c2) && x == Advance(c, c2) {
      var c, c2 :| FrontStep(c, c2) && x == Advance(c, c2);
      StartRule(3, c);
      StartRule(4, c2);
      assert StepTo(Start, 3, c, 1, 0, false, 4, c2, x);
      assert LegalMove(Start, 0, 3, c, x);
    }
  }

  /** Different advances give different boards. */
  lemma AdvancesDiffer(c: int, c2: int, c': int, c2': int)
    requires FrontStep(c, c2) && FrontStep(c', c2') && (c, c2) != (c', c2')
    ensures Advance(c, c2) != Advance(c', c2')
  {
    StartRule(3, c);
    StartRule(4, c2);
    if c2 != c2' {
      assert At(Advance(c', c2'), 4, c2) == Empty;
    } else {
      assert At(Advance(c', c2'), 3, c) == Man(Red);
    }
  }

  lemma FirstMovesDistinct()
    ensures Distinct(FirstMoves())
  {
    var ms := FirstMoves();
    forall i, j | 0 <= i < j < |ms|
      ensures ms[i] != ms[j]
    {
      FrontStepsListed(FrontSteps[i].0, FrontSteps[i].1);
      FrontStepsListed(FrontSteps[j].0, FrontSteps[j].1);
      AdvancesDiffer(FrontSteps[i].0, FrontSteps[i].1, FrontSteps[j].0, FrontSteps[j].1);
    }
  }

  /** Two lists without repeats that hold the same elements are equally long. */
  lemma {:induction false} DistinctSameLength<T>(a: seq<T>, b: seq<T>)
    requires Distinct(a) && Distinct(b)
    requires forall y :: y in a <==> y in b
    ensures |a| == |b|
  {
    DistinctCard(a);
    DistinctCard(b);
    assert (set y | y in a) == (set y | y in b);
  }

  lemma {:induction false} DistinctCard<T>(s: seq<T>)
    requires Distinct(s)
    ensures |set y | y in s| == |s|
  {
    if s != [] {
      var tl := s[1..];
      assert Distinct(tl) by {
        forall i, j | 0 <= i < j < |tl| ensures tl[i] != tl[j] {
          assert tl[i] == s[i + 1] && tl[j] == s[j + 1];
        }
      }
      DistinctCard(tl);
      assert s[0] !in tl by {
        forall i | 0 <= i < |tl| ensures tl[i] != s[0] {
          assert tl[i] == s[i + 1];
        }
      }
      assert (set y | y in s) == (set y | y in tl) + {s[0]} by {
        assert s == [s[0]] + tl;
      }
    }
  }

  /** Every advance is among the seven first moves, and only advances are. */
  lemma FirstMovesAdvances(x: Board)
    ensures x in FirstMoves() <==> exists c, c2 :: FrontStep(c, c2) && x == Advance(c, c2)
  {
    var ms := FirstMoves();
    if exists c, c2 :: FrontStep(c, c2) && x == Advance(c, c2) {
      var c, c2 :| FrontStep(c, c2) && x == Advance(c, c2);
      FrontStepsListed(c, c2);
      var i :| 0 <= i < 7 && FrontSteps[i] == (c, c2);
      assert x == ms[i];
    }
    if x in ms {
      var i :| 0 <= i < 7 && ms[i] == x;
      FrontStepsListed(FrontSteps[i].0, FrontSteps[i].1);
    }
  }

  /** A board is listed by get_succ for the opening position exactly when it
      is one of the seven advances. */
  lemma OpeningMember(x: Board)
    ensures x in GetSucc(Start, 0) <==> x in FirstMoves()
  {
    GetSuccSpec(Start, 0, x);
    OpeningSuccessors(x);
    FirstMovesAdvances(x);
  }

  /** From the opening position red has exactly seven moves, the advances
      of the row-3 pieces, and get_succ lists each once. */
  lemma OpeningMoves()
    ensures forall x :: x in GetSucc(Start, 0) <==> x in FirstMoves()
    ensures |GetSucc(Start, 0)| == 7
  {
    forall x ensures x in GetSucc(Start, 0) <==> x in FirstMoves() {
      OpeningMember(x);
    }
    GetSuccDistinct(Start, 0);
    FirstMovesDistinct();
    DistinctSameLength(GetSucc(Start, 0), FirstMoves());
  }

  // ---------------------------------------------------------------------
  // The order of get_succ's list on the opening position

  /** The red pieces of the opening position, in row-major order. */
  const RedStart: seq<Square> := [Sq(1, 2), Sq(1, 4), Sq(1, 6), Sq(1, 8), Sq(2, 1), Sq(2, 3), Sq(2, 5), Sq(2, 7),
                                  Sq(3, 2), Sq(3, 4), Sq(3, 6), Sq(3, 8)]

  lemma RedSquare(r: int, c: int)
    requires OnBoard(r, c)
    ensures StartCell(r, c) == Man(Red) <==> Sq(r, c) in RedStart
  {
    if r == 1 {} else if r == 2 {} else if r == 3 {} else {}
  }

  /** get_locs lists the twelve red pieces of the opening position row by row. */
  lemma RedLocs()
    ensures Locs(Start, Man(Red)) == RedStart
  {
    forall i | 0 <= i < |RedStart|
      ensures OnBoard(RedStart[i].row, RedStart[i].col) && At(Start, RedStart[i].row, RedStart[i].col) == Man(Red)
    {
      StartRule(RedStart[i].row, RedStart[i].col);
      RedSquare(RedStart[i].row, RedStart[i].col);
    }
    forall r, c | OnBoard(r, c) && At(Start, r, c) == Man(Red)
      ensures Sq(r, c) in RedStart
    {
      StartRule(r, c);
      RedSquare(r, c);
    }
    RedStartSorted();
    LocsUnique(Start, Man(Red), RedStart);
  }

  lemma RedStartSorted()
    ensures RowMajor(RedStart)
  {
  }

  /** The opening position has no red king. */
  lemma NoRedKings()
    ensures Locs(Start, King(Red)) == []
  {
    var l := Locs(Start, King(Red));
    if l != [] {
      StartRule(l[0].row, l[0].col);
    }
  }

  /** A red piece behind the front row has no step. */
  lemma BackBlocked(r: int, c: int)
    requires OnBoard(r, c) && r <= 2 && StartCell(r, c) == Man(Red)
    ensures SimpleMoves(Start, r, c, 1, 0, false) == []
  {
    if c > 1 {
      StartRule(r + 1, c - 1);
    }
    if c < 8 {
      StartRule(r + 1, c + 1);
    }
  }

  /** A front-row piece steps left, then (off the right edge) right. */
  lemma FrontMoves(c: int)
    requires c == 2 || c == 4 || c == 6 || c == 8
    ensures c < 8 ==> SimpleMoves(Start, 3, c, 1, 0, false) == [Advance(c, c - 1), Advance(c, c + 1)]
    ensures c == 8 ==> SimpleMoves(Start, 3, c, 1, 0, false) == [Advance(c, c - 1)]
  {
    StartRule(3, c);
    StartRule(4, c - 1);
    if c < 8 {
      StartRule(4, c + 1);
    }
  }

  /** Once `b` itself is listed, a square without a jump adds only its steps. */
  lemma ExpandStep(s: seq<Board>, b: Board, q: Square, rest: seq<Square>)
    requires b in s && OnBoard(q.row, q.col) && JumpOptions(b, q.row, q.col, 1, 0, false) == []
    requires forall i | 0 <= i < |rest| :: OnBoard(rest[i].row, rest[i].col)
    ensures Expand(s, b, [q] + rest, 1, 0, false)
            == Expand(s + SimpleMoves(b, q.row, q.col, 1, 0, false), b, rest, 1, 0, false)
  {
    var s1 := s + SimpleMoves(b, q.row, q.col, 1, 0, false);
    assert b in s1;
    assert Jumps(s1, b, q.row, q.col, 1, 0, false) == s1;
    assert ([q] + rest)[1..] == rest;
  }

  /** The front-row pieces of the opening position, left to right. */
  const FrontRow: seq<Square> := [Sq(3, 2), Sq(3, 4), Sq(3, 6), Sq(3, 8)]

  lemma RedStartParts()
    ensures RedStart == [Sq(1, 2)] + RedStart[1..]
    ensures RedStart[1..] == RedStart[1..8] + FrontRow
  {
  }

  lemma FirstMovesListed()
    ensures FirstMoves() == [Advance(2, 1), Advance(2, 3), Advance(4, 3), Advance(4, 5),
                             Advance(6, 5), Advance(6, 7), Advance(8, 7)]
  {
  }

  /** The steps of the squares `locs`, in order. */
  function StepsOf(b: Board, locs: seq<Square>): seq<Board>
    requires forall i | 0 <= i < |locs| :: OnBoard(locs[i].row, locs[i].col)
    decreases |locs|
  {
    if locs == [] then [] else SimpleMoves(b, locs[0].row, locs[0].col, 1, 0, false) + StepsOf(b, locs[1..])
  }

  /** Once `b` itself is listed, squares without a jump add exactly their steps. */
  lemma {:induction false} ExpandNoJumps(s: seq<Board>, b: Board, locs: seq<Square>)
    requires b in s
    requires forall i | 0 <= i < |locs| :: OnBoard(locs[i].row, locs[i].col)
               && JumpOptions(b, locs[i].row, locs[i].col, 1, 0, false) == []
    ensures Expand(s, b, locs, 1, 0, false) == s + StepsOf(b, locs)
    decreases |locs|
  {
    if locs == [] {
      assert s + [] == s;
    } else {
      var q, tl := locs[0], locs[1..];
      assert locs == [q] + tl;
      ExpandStep(s, b, q, tl);
      var m := SimpleMoves(b, q.row, q.col, 1, 0, false);
      assert b in s + m;
      ExpandNoJumps(s + m, b, tl);
      assert StepsOf(b, locs) == m + StepsOf(b, tl);
      AppendAssoc(s, m, StepsOf(b, tl));
    }
  }

  /** Associativity, proved apart: inside ExpandNoJumps, whose context holds
      the unfolded Expand, the same assertion does not close. */
  lemma AppendAssoc<T>(a: seq<T>, b: seq<T>, c: seq<T>)
    ensures (a + b) + c == a + (b + c)
  {
  }

  lemma {:induction false} StepsAppend(b: Board, l1: seq<Square>, l2: seq<Square>)
    requires forall i | 0 <= i < |l1| :: OnBoard(l1[i].row, l1[i].col)
    requires forall i | 0 <= i < |l2| :: OnBoard(l2[i].row, l2[i].col)
    ensures StepsOf(b, l1 + l2) == StepsOf(b, l1) + StepsOf(b, l2)
    decreases |l1|
  {
    if l1 == [] {
      assert l1 + l2 == l2;
    } else {
      assert (l1 + l2)[1..] == l1[1..] + l2;
      StepsAppend(b, l1[1..], l2);
    }
  }

  /** The red pieces behind the front row have no steps. */
  lemma {:induction false} BackSteps(back: seq<Square>)
    requires forall i | 0 <= i < |back| :: OnBoard(back[i].row, back[i].col) && back[i].row <= 2
               && StartCell(back[i].row, back[i].col) == Man(Red)
    ensures StepsOf(Start, back) == []
    decreases |back|
  {
    if back != [] {
      BackBlocked(back[0].row, back[0].col);
      BackSteps(back[1..]);
    }
  }

  lemma StepsCons(b: Board, q: Square, l: seq<Square>)
    requires OnBoard(q.row, q.col)
    requires forall i | 0 <= i < |l| :: OnBoard(l[i].row, l[i].col)
    ensures StepsOf(b, [q] + l) == SimpleMoves(b, q.row, q.col, 1, 0, false) + StepsOf(b, l)
  {
    assert ([q] + l)[1..] == l;
  }

  lemma StepsOfFour(b: Board, q1: Square, q2: Square, q3: Square, q4: Square)
    requires OnBoard(q1.row, q1.col) && OnBoard(q2.row, q2.col) && OnBoard(q3.row, q3.col) && OnBoard(q4.row, q4.col)
    ensures StepsOf(b, [q1, q2, q3, q4])
            == SimpleMoves(b, q1.row, q1.col, 1, 0, false) + (SimpleMoves(b, q2.row, q2.col, 1, 0, false)
               + (SimpleMoves(b, q3.row, q3.col, 1, 0, false) + SimpleMoves(b, q4.row, q4.col, 1, 0, false)))
  {
    assert [q1, q2, q3, q4] == [q1] + ([q2] + ([q3] + ([q4] + [])));
    StepsCons(b, q4, []);
    StepsCons(b, q3, [q4] + []);
    StepsCons(b, q2, [q3] + ([q4] + []));
    StepsCons(b, q1, [q2] + ([q3] + ([q4] + [])));
    assert SimpleMoves(b, q4.row, q4.col, 1, 0, false) + [] == SimpleMoves(b, q4.row, q4.col, 1, 0, false);
  }

  /** The four front-row pieces step to the seven advances, left to right. */
  lemma FrontRowSteps()
    ensures StepsOf(Start, FrontRow) == FirstMoves()
  {
    StepsOfFour(Start, Sq(3, 2), Sq(3, 4), Sq(3, 6), Sq(3, 8));
    FrontMoves(2);
    FrontMoves(4);
    FrontMoves(6);
    FrontMoves(8);
    FirstMovesListed();
    var a, c, e, g := Advance(2, 1), Advance(4, 3), Advance(6, 5), Advance(8, 7);
    var bb, d, f := Advance(2, 3), Advance(4, 5), Advance(6, 7);
    assert [a, bb] + ([c, d] + ([e, f] + [g])) == [a, bb, c, d, e, f, g];
  }

  /** With no king to move, get_succ's loops run over the regular pieces only. */
  lemma CandidatesWithoutKings(b: Board, t: int)
    requires Locs(b, KingOf(t)) == []
    ensures Candidates(b, t) == Expand([], b, Locs(b, Piece(t)), Forward(t), t, false)
  {
    var s := Expand([], b, Locs(b, Piece(t)), Forward(t), t, false);
    assert Expand(s, b, [], Forward(t), t, true) == s;
  }

  /** get_succ's loops on the opening position run over the red pieces only. */
  lemma OpeningCandidates()
    ensures Candidates(Start, 0) == Expand([], Start, RedStart, 1, 0, false)
  {
    NoRedKings();
    CandidatesWithoutKings(Start, 0);
    RedLocs();
  }

  /** The first red piece, on (1, 2), has neither a step nor a jump, so
      copy_jump_state appends the opening position itself. */
  lemma OpeningFirstPiece()
    ensures Expand([], Start, RedStart, 1, 0, false) == Expand([Start], Start, RedStart[1..], 1, 0, false)
  {
    RedStartParts();
    StartRule(1, 2);
    BackBlocked(1, 2);
    NoOpeningJump(1, 2);
    assert [] + SimpleMoves(Start, 1, 2, 1, 0, false) == [];
    assert Jumps([], Start, 1, 2, 1, 0, false) == [Start];
  }

  /** The other eleven red pieces add the seven advances. */
  lemma OpeningOtherPieces()
    ensures Expand([Start], Start, RedStart[1..], 1, 0, false) == [Start] + FirstMoves()
  {
    RedStartParts();
    var rest := RedStart[1..];
    forall i | 0 <= i < |rest|
      ensures OnBoard(rest[i].row, rest[i].col) && JumpOptions(Start, rest[i].row, rest[i].col, 1, 0, false) == []
    {
      RedSquare(rest[i].row, rest[i].col);
      StartRule(rest[i].row, rest[i].col);
      NoOpeningJump(rest[i].row, rest[i].col);
    }
    ExpandNoJumps([Start], Start, rest);
    OtherPiecesSteps();
  }

  lemma OtherPiecesSteps()
    ensures StepsOf(Start, RedStart[1..]) == FirstMoves()
  {
    RedStartParts();
    var back := RedStart[1..8];
    forall i | 0 <= i < 7
      ensures OnBoard(back[i].row, back[i].col) && back[i].row <= 2 && StartCell(back[i].row, back[i].col) == Man(Red)
    {
      RedSquare(back[i].row, back[i].col);
    }
    StepsAppend(Start, back, FrontRow);
    BackSteps(back);
    FrontRowSteps();
  }

  /** get_succ lists the seven advances of the opening position in the order
      of FrontSteps: the row-3 pieces left to right, each stepping left
      before right. */
  lemma OpeningOrder()
    ensures GetSucc(Start, 0) == FirstMoves()
  {
    OpeningCandidates();
    OpeningFirstPiece();
    OpeningOtherPieces();
    assert Candidates(Start, 0) == [Start] + FirstMoves();
  }
}

=== FILE: pieces.dfy ===
/** Piece markers and the turn-to-colour mapping of checkers_info.py. */
module Pieces {

  /** The two colours. `Red` starts on rows 1-3 and moves on even turns. */
  datatype Side = Red | Black

  /** The content of one playable square. */
  datatype Cell = Empty | Man(side: Side) | King(side: Side)

  /** Colour of the side to move on turn `t`; only the parity of `t` matters. */
  function SideOf(t: int): Side {
    if t % 2 == 0 then Red else Black
  }

  /** The regular-piece marker of the side to move on turn `t` (get_piece). */
  function Piece(t: int): Cell {
    Man(SideOf(t))
  }

  /** The king marker of the side to move on turn `t` (get_king). */
  function KingOf(t: int): Cell {
    King(SideOf(t))
  }

  /** The character the program stores for each cell. */
  function Glyph(x: Cell): (g: char)
    ensures g == ' ' <==> x == Empty
    ensures x.Man? ==> g == (if x.side == Red then 'r' else 'b')
    ensures x.King? ==> g == (if x.side == Red then 'R' else 'B')
  {
    match x
    case Empty => ' '
    case Man(Red) => 'r'
    case Man(Black) => 'b'
    case King(Red) => 'R'
    case King(Black) => 'B'
  }

  /** Markers depend on the parity of the turn only: equal two turns apart,
      different one turn apart. */
  lemma MarkersFollowParity(t: int)
    ensures Piece(t) == Piece(t + 2) && KingOf(t) == KingOf(t + 2)
    ensures Piece(t) != Piece(t + 1) && KingOf(t) != KingOf(t + 1)
    ensures Piece(t) != KingOf(t) && Piece(t) != KingOf(t + 1)
  {
  }

  /** The four markers and the empty square are pairwise distinct characters. */
  lemma GlyphsDistinct(x: Cell, y: Cell)
    ensures Glyph(x) == Glyph(y) <==> x == y
  {
  }
}

=== FILE: player.dfy ===
/** The human side of checkers.py: CheckersPlayer.validate_move, which parses
    typed coordinates such as "C3" and "D4", replays the steps on a copy of
    the board and accepts only a board get_succ lists; and check_win. */
module Player {
  import opened Pieces
  import opened Grid
  import opened Moves
  import opened Legality

  /** The messages of validate_move, in the program's order. */
  const Errors: seq<string> := [
    "You don't have a piece there!",
    "Invalid row.",
    "Invalid column.",
    "Must specify at least one move.",
    "Invalid move.",
    "Invalid multi-move.",
    "Non-legal move."
  ]

  /** The `cols` table: column letters to column numbers. */
  const Cols: map<char, int> := map['A' := 1, 'B' := 2, 'C' := 3, 'D' := 4, 'E' := 5, 'F' := 6, 'G' := 7, 'H' := 8]

  /** `str.upper` on one ASCII character. */
  function Upper(ch: char): char {
    if 'a' <= ch <= 'z' then (ch as int - 32) as char else ch
  }

  predicate IsDigit(ch: char) {
    '0' <= ch <= '9'
  }

  function Abs(x: int): nat {
    if x < 0 then -x else x
  }

  /** A typed square, or the index of the message that rejects it. */
  datatype Parsed = Ok(row: int, col: int) | Fail(error: nat)

  /** The parsing of one two-character coordinate: `int` of the second
      character must succeed and give 1..8 (else "Invalid row."), then the
      upper-cased first character must be in `cols` (else "Invalid column."). */
  function ParseSquare(s: string): (p: Parsed)
    requires |s| == 2
    ensures p.Ok? ==> OnBoard(p.row, p.col)
    ensures p.Fail? ==> p.error == 1 || p.error == 2
  {
    if !IsDigit(s[1]) then Fail(1)
    else
      var r := s[1] as int - '0' as int;
      if r < 1 || r > 8 then Fail(1)
      else if Upper(s[0]) !in Cols then Fail(2)
      else Ok(r, Cols[Upper(s[0])])
  }

  /** The characters accepted as a row. */
  predicate RowChar(ch: char) {
    ch in "12345678"
  }

  /** The characters accepted as a column, in either case. */
  predicate ColChar(ch: char) {
    ch in "ABCDEFGHabcdefgh"
  }

  /** The way the board labels a square: column letter, then row digit. */
  function Format(q: Square): string
    requires OnBoard(q.row, q.col)
  {
    [(('A' as int) + q.col - 1) as char, (('0' as int) + q.row) as char]
  }

  function Formats(ps: seq<Square>): seq<string>
    requires forall i | 0 <= i < |ps| :: OnBoard(ps[i].row, ps[i].col)
  {
    if ps == [] then [] else [Format(ps[0])] + Formats(ps[1..])
  }

  /** The row is checked before the column: a bad row character is reported
      as such whatever the column, and the column is reported only for a
      good row. */
  lemma ParseSquareErrors(s: string)
    requires |s| == 2
    ensures ParseSquare(s) == Fail(1) <==> !RowChar(s[1])
    ensures ParseSquare(s) == Fail(2) <==> RowChar(s[1]) && !ColChar(s[0])
    ensures ParseSquare(s).Ok? <==> RowChar(s[1]) && ColChar(s[0])
  {
  }

  /** Parsing reads back the label of every square, and a parsed square is
      the label of that square up to the case of its letter. */
  lemma ParseFormat(q: Square, s: string)
    requires OnBoard(q.row, q.col) && |s| == 2
    ensures ParseSquare(Format(q)) == Ok(q.row, q.col)
    ensures ParseSquare(s) == Ok(q.row, q.col) <==> s[1] == Format(q)[1] && Upper(s[0]) == Format(q)[0]
  {
    var c := q.col;
    if c == 1 {} else if c == 2 {} else if c == 3 {} else if c == 4 {}
    else if c == 5 {} else if c == 6 {} else if c == 7 {} else {}
  }

  /** One replayed step of validate_move on the copy: the destination gets
      the moving piece, or the king marker of the turn when it is on row 1 or
      8; the origin is cleared, and for a two-square step so is the square in
      between. */
  function Step(b: Board, fr: int, fc: int, tr: int, tc: int, turn: int): (m: Board)
    requires OnBoard(fr, fc) && OnBoard(tr, tc)
    requires (Abs(tr - fr) == 1 || Abs(tr - fr) == 2) && Abs(tr - fr) == Abs(tc - fc)
    ensures At(m, tr, tc) == (if tr != 1 && tr != 8 then At(b, fr, fc) else KingOf(turn))
    ensures At(m, fr, fc) == Empty
    ensures Abs(tr - fr) == 2 ==> At(m, (tr + fr) / 2, (tc + fc) / 2) == Empty
    ensures forall i, j | OnBoard(i, j) && (i, j) != (fr, fc) && (i, j) != (tr, tc)
              && (Abs(tr - fr) == 1 || (i, j) != ((tr + fr) / 2, (tc + fc) / 2)) :: At(m, i, j) == At(b, i, j)
  {
    var x := if tr != 1 && tr != 8 then At(b, fr, fc) else KingOf(turn);
    var m := Relocate(b, fr, fc, tr, tc, x);
    if Abs(tr - fr) == 2 then Set(m, (tr + fr) / 2, (tc + fc) / 2, Empty) else m
  }

  /** The outcome of the loop over the typed destinations. */
  datatype Replay = Rejected(error: nat) | Replayed(board: Board)

  /** The loop of validate_move over the destinations `ms`, starting from
      (fr, fc); `many` says more than one destination was typed. */
  function ReplaySteps(b: Board, fr: int, fc: int, ms: seq<string>, many: bool, turn: int): (res: Replay)
    requires OnBoard(fr, fc)
    ensures res.Rejected? ==> res.error in {1, 2, 4, 5}
    ensures ms == [] ==> res == Replayed(b)
    ensures ms != [] && |ms[0]| != 2 ==> res == Rejected(4)
    ensures ms != [] && |ms[0]| == 2 && !RowChar(ms[0][1]) ==> res == Rejected(1)
    ensures ms != [] && |ms[0]| == 2 && RowChar(ms[0][1]) && !ColChar(ms[0][0]) ==> res == Rejected(2)
    decreases |ms|
  {
    if ms == [] then Replayed(b)
    else if |ms[0]| != 2 then Rejected(4)
    else
      ParseSquareErrors(ms[0]);
      match ParseSquare(ms[0])
      case Fail(e) => Rejected(e)
      case Ok(tr, tc) =>
        var d1, d2 := tr - fr, tc - fc;
        if (Abs(d1) != 1 && Abs(d1) != 2) || Abs(d1) != Abs(d2) then Rejected(4)
        else if many && Abs(d1) < 2 then Rejected(5)
        else ReplaySteps(Step(b, fr, fc, tr, tc, turn), tr, tc, ms[1..], many, turn)
  }

  /** What validate_move returns, `(valid, message)`, and the player's board
      afterwards. */
  datatype Validation = Validation(valid: bool, message: string, board: Board)

  /** The typed move names a square, lists at least one destination, and
      every destination replays from that square without a rejection. */
  predicate Replays(mod: Board, f: string, ts: seq<string>, turn: int) {
    && |f| == 2 && ParseSquare(f).Ok? && ts != []
    && ReplaySteps(mod, ParseSquare(f).row, ParseSquare(f).col, ts, |ts| > 1, turn).Replayed?
  }

  /** The copy of the board after replaying the typed move. */
  function TypedBoard(mod: Board, f: string, ts: seq<string>, turn: int): Board
    requires Replays(mod, f, ts, turn)
  {
    ReplaySteps(mod, ParseSquare(f).row, ParseSquare(f).col, ts, |ts| > 1, turn).board
  }

  /** validate_move(f, t, turn) on a player whose board is `mod`: the move is
      accepted exactly when its replay is a board of get_succ, and then that
      replayed board is installed. */
  function ValidateMove(mod: Board, f: string, ts: seq<string>, turn: int): (v: Validation)
    ensures v.valid <==> Replays(mod, f, ts, turn) && TypedBoard(mod, f, ts, turn) in GetSucc(mod, turn)
    ensures v.valid ==> v.message == "" && v.board == TypedBoard(mod, f, ts, turn)
    ensures !v.valid ==> v.board == mod && v.message in Errors
  {
    if |f| != 2 then Validation(false, Errors[0], mod)
    else
      match ParseSquare(f)
      case Fail(e) => Validation(false, Errors[e], mod)
      case Ok(fr, fc) =>
        if |ts| == 0 then Validation(false, Errors[3], mod)
        else
          match ReplaySteps(mod, fr, fc, ts, |ts| > 1, turn)
          case Rejected(e) => Validation(false, Errors[e], mod)
          case Replayed(x) =>
            if x in GetSucc(mod, turn) then Validation(true, "", x)
            else Validation(false, Errors[6], mod)
  }

  /** validate_move accepts a typed move exactly when its replay is one
      legal move away, and installs that board; any other typed move leaves
      the board as it was. */
  lemma ValidateMoveLegal(mod: Board, f: string, ts: seq<string>, turn: int)
    ensures ValidateMove(mod, f, ts, turn).valid
            <==> Replays(mod, f, ts, turn) && IsSuccessor(mod, turn, TypedBoard(mod, f, ts, turn))
    ensures ValidateMove(mod, f, ts, turn).valid ==> IsSuccessor(mod, turn, ValidateMove(mod, f, ts, turn).board)
    ensures !IsSuccessor(mod, turn, ValidateMove(mod, f, ts, turn).board) ==> ValidateMove(mod, f, ts, turn).board == mod
  {
    GetSuccSpec(mod, turn, ValidateMove(mod, f, ts, turn).board);
    if Replays(mod, f, ts, turn) {
      GetSuccSpec(mod, turn, TypedBoard(mod, f, ts, turn));
    }
  }

  /** The checks on the piece coordinate come first and in this order: its
      length, its row, its column, then the presence of a destination. */
  lemma OriginErrors(mod: Board, f: string, ts: seq<string>, turn: int)
    ensures |f| != 2 ==> ValidateMove(mod, f, ts, turn) == Validation(false, Errors[0], mod)
    ensures |f| == 2 && !RowChar(f[1]) ==> ValidateMove(mod, f, ts, turn) == Validation(false, Errors[1], mod)
    ensures |f| == 2 && RowChar(f[1]) && !ColChar(f[0])
            ==> ValidateMove(mod, f, ts, turn) == Validation(false, Errors[2], mod)
    ensures |f| == 2 && RowChar(f[1]) && ColChar(f[0]) && ts == []
            ==> ValidateMove(mod, f, ts, turn) == Validation(false, Errors[3], mod)
  {
    if |f| == 2 {
      ParseSquareErrors(f);
    }
  }

  /** A step that is not diagonal by one or two squares is "Invalid move.";
      a one-square step among several destinations is "Invalid multi-move.". */
  lemma StepErrors(b: Board, fr: int, fc: int, m: string, ms: seq<string>, many: bool, turn: int, q: Square)
    requires OnBoard(fr, fc) && |m| == 2 && ParseSquare(m) == Ok(q.row, q.col)
    ensures Abs(q.row - fr) != Abs(q.col - fc) || Abs(q.row - fr) == 0 || Abs(q.row - fr) > 2
            ==> ReplaySteps(b, fr, fc, [m] + ms, many, turn) == Rejected(4)
    ensures Abs(q.row - fr) == Abs(q.col - fc) == 1 && many
            ==> ReplaySteps(b, fr, fc, [m] + ms, many, turn) == Rejected(5)
  {
    assert ([m] + ms)[0] == m;
  }

  /** check_win: the number of successors, zero exactly when the side to move
      has no legal move. */
  function CheckWin(b: Board, t: int): (n: nat)
    ensures n == 0 <==> forall x :: !IsSuccessor(b, t, x)
  {
    var s := GetSucc(b, t);
    if s != [] then
      GetSuccSpec(b, t, s[0]);
      |s|
    else
      GetSuccEmpty(b, t);
      |s|
  }

  lemma GetSuccEmpty(b: Board, t: int)
    requires GetSucc(b, t) == []
    ensures forall x :: !IsSuccessor(b, t, x)
  {
    forall x
      ensures !IsSuccessor(b, t, x)
    {
      GetSuccSpec(b, t, x);
    }
  }

  // ---------------------------------------------------------------------
  // Every successor can be typed in

  /** Replaying a legal step reproduces get_succ's board: the crowning rule
      of the replay (row 1 or 8) and of copy_simple_state (forward onto row 1
      or 8) differ only for kings, which stay kings either way. */
  lemma StepReplaysMove(b: Board, r: int, c: int, d: int, t: int, king: bool, r2: int, c2: int, x: Board)
    requires OnBoard(r, c) && (d == 1 || d == -1) && (king ==> At(b, r, c) == KingOf(t))
    requires StepTo(b, r, c, d, t, king, r2, c2, x)
    ensures Abs(r2 - r) == 1 && Abs(c2 - c) == 1
    ensures Step(b, r, c, r2, c2, t) == x
  {
    var cx := if r2 == r + d && (r2 == 1 || r2 == 8) then KingOf(t) else At(b, r, c);
    var cy := if r2 != 1 && r2 != 8 then At(b, r, c) else KingOf(t);
    assert cx == cy;
  }

  /** Replaying one jump of a chain reproduces copy_jump_state's board. */
  lemma JumpReplaysMove(b: Board, r: int, c: int, d: int, t: int, king: bool, o: Jump)
    requires OnBoard(r, c) && (d == 1 || d == -1) && (king ==> At(b, r, c) == KingOf(t))
    requires o in JumpOptions(b, r, c, d, t, king)
    ensures OnBoard(o.row, o.col) && Abs(o.row - r) == 2 && Abs(o.col - c) == 2
    ensures Step(b, r, c, o.row, o.col, t) == o.board
  {
    var dr, dc, forward := JumpOptionsSplit(b, r, c, d, t, king, o);
    JumpToReplays(b, r, c, dr, dc, t, forward, o);
  }

  lemma JumpToReplays(b: Board, r: int, c: int, dr: int, dc: int, t: int, forward: bool, o: Jump)
    requires OnBoard(r, c) && (dr == 1 || dr == -1) && (dc == 1 || dc == -1) && 0 < r + 2 * dr < 9
    requires o in JumpTo(b, r, c, dr, dc, t, forward) && (!forward ==> At(b, r, c) == KingOf(t))
    ensures OnBoard(o.row, o.col) && Abs(o.row - r) == 2 && Abs(o.col - c) == 2
    ensures Step(b, r, c, o.row, o.col, t) == o.board
  {
    var r1, c1, r2, c2 := r + dr, c + dc, r + 2 * dr, c + 2 * dc;
    var x := Arriving(b, r, c, r2, t, forward);
    assert o.row == r2 && o.col == c2 && o.board == Jumped(b, r, c, r1, c1, r2, c2, x);
    assert x == if r2 != 1 && r2 != 8 then At(b, r, c) else KingOf(t);
    assert r1 == (r + r2) / 2 && c1 == (c + c2) / 2;
    StepIsJumped(b, r, c, r2, c2, t);
  }

  /** A chain that goes on with king moves has a king on its landing square. */
  lemma JumpKeepsKing(b: Board, r: int, c: int, d: int, t: int, king: bool, o: Jump)
    requires OnBoard(r, c) && (d == 1 || d == -1) && (king ==> At(b, r, c) == KingOf(t))
    requires o in JumpOptions(b, r, c, d, t, king)
    ensures o.king ==> At(o.board, o.row, o.col) == KingOf(t)
  {
    JumpOptionsSpec(b, r, c, d, t, king, o);
  }

  lemma StepIsJumped(b: Board, r: int, c: int, r2: int, c2: int, t: int)
    requires OnBoard(r, c) && OnBoard(r2, c2) && Abs(r2 - r) == 2 && Abs(c2 - c) == 2
    ensures Step(b, r, c, r2, c2, t)
            == Jumped(b, r, c, (r + r2) / 2, (c + c2) / 2, r2, c2,
                      if r2 != 1 && r2 != 8 then At(b, r, c) else KingOf(t))
  {
    assert (r2 + r) / 2 == (r + r2) / 2 && (c2 + c) / 2 == (c + c2) / 2;
  }

  /** Typing one more square in front of a list replays that step first. */
  lemma ReplayCons(b: Board, fr: int, fc: int, q: Square, ms: seq<string>, many: bool, turn: int)
    requires OnBoard(fr, fc) && OnBoard(q.row, q.col)
    requires Abs(q.row - fr) == 2 && Abs(q.col - fc) == 2
    ensures ReplaySteps(b, fr, fc, [Format(q)] + ms, many, turn)
            == ReplaySteps(Step(b, fr, fc, q.row, q.col, turn), q.row, q.col, ms, many, turn)
  {
    var all := [Format(q)] + ms;
    assert all[0] == Format(q) && all[1..] == ms;
    ParseFormat(q, Format(q));
  }

  /** The landing squares of a capture chain, typed in order, replay to the
      chain's end, whether or not they are several. */
  lemma {:induction false} ChainReplays(b: Board, r: int, c: int, d: int, t: int, king: bool, x: Board)
      returns (ps: seq<Square>)
    requires OnBoard(r, c) && (d == 1 || d == -1) && (king ==> At(b, r, c) == KingOf(t))
    requires Final(b, r, c, d, t, king, x)
    ensures forall i | 0 <= i < |ps| :: OnBoard(ps[i].row, ps[i].col)
    ensures JumpOptions(b, r, c, d, t, king) == [] <==> ps == []
    ensures ReplaySteps(b, r, c, Formats(ps), true, t) == Replayed(x)
    ensures ReplaySteps(b, r, c, Formats(ps), false, t) == Replayed(x)
    decreases Count(b, SideOf(t + 1))
  {
    if JumpOptions(b, r, c, d, t, king) == [] {
      ps := [];
    } else {
      var o := FinalNext(b, r, c, d, t, king, x);
      JumpKeepsKing(b, r, c, d, t, king, o);
      var rest := ChainReplays(o.board, o.row, o.col, d, t, o.king, x);
      ChainCons(b, r, c, d, t, king, o, rest, x, true);
      ChainCons(b, r, c, d, t, king, o, rest, x, false);
      ps := [Sq(o.row, o.col)] + rest;
    }
  }

  /** A chain that has not ended goes on with one of the jumps available. */
  lemma FinalNext(b: Board, r: int, c: int, d: int, t: int, king: bool, x: Board) returns (o: Jump)
    requires OnBoard(r, c) && (d == 1 || d == -1)
    requires Final(b, r, c, d, t, king, x) && JumpOptions(b, r, c, d, t, king) != []
    ensures o in JumpOptions(b, r, c, d, t, king)
    ensures OnBoard(o.row, o.col) && Count(o.board, SideOf(t + 1)) < Count(b, SideOf(t + 1))
    ensures Final(o.board, o.row, o.col, d, t, o.king, x)
  {
    var opts := JumpOptions(b, r, c, d, t, king);
    var i :| 0 <= i < |opts| && Final(opts[i].board, opts[i].row, opts[i].col, d, t, opts[i].king, x);
    o := opts[i];
  }

  /** Typing the landing square of one jump in front of the rest of a chain. */
  lemma ChainCons(b: Board, r: int, c: int, d: int, t: int, king: bool, o: Jump, rest: seq<Square>, x: Board,
                  many: bool)
    requires OnBoard(r, c) && (d == 1 || d == -1) && (king ==> At(b, r, c) == KingOf(t))
    requires o in JumpOptions(b, r, c, d, t, king)
    requires forall i | 0 <= i < |rest| :: OnBoard(rest[i].row, rest[i].col)
    requires OnBoard(o.row, o.col)
    requires ReplaySteps(o.board, o.row, o.col, Formats(rest), many, t) == Replayed(x)
    ensures forall i | 0 <= i < |[Sq(o.row, o.col)] + rest| ::
              OnBoard(([Sq(o.row, o.col)] + rest)[i].row, ([Sq(o.row, o.col)] + rest)[i].col)
    ensures ReplaySteps(b, r, c, Formats([Sq(o.row, o.col)] + rest), many, t) == Replayed(x)
  {
    JumpReplaysMove(b, r, c, d, t, king, o);
    var q := Sq(o.row, o.col);
    var ps := [q] + rest;
    assert ps[0] == q && ps[1..] == rest;
    assert Formats(ps) == [Format(q)] + Formats(rest);
    ReplayCons(b, r, c, q, Formats(rest), many, t);
  }

  /** validate_move accepts every board get_succ lists: the piece's square
      followed by its destination, or by the landing squares of its capture
      chain, is accepted and installs exactly that board. */
  lemma EveryMoveCanBeEntered(mod: Board, turn: int, x: Board) returns (f: string, ts: seq<string>)
    requires x in GetSucc(mod, turn)
    ensures ValidateMove(mod, f, ts, turn) == Validation(true, "", x)
  {
    var r, c, ms := MoveOrigin(mod, turn, x);
    f, ts := Format(Sq(r, c)), ms;
    ReplayAccepted(mod, f, ts, turn, r, c, x);
  }

  /** A board of get_succ comes from some square's piece and some typed
      destinations that replay to it. */
  lemma MoveOrigin(mod: Board, turn: int, x: Board) returns (r: int, c: int, ts: seq<string>)
    requires x in GetSucc(mod, turn)
    ensures OnBoard(r, c) && ts != [] && ReplaySteps(mod, r, c, ts, |ts| > 1, turn) == Replayed(x)
  {
    GetSuccSpec(mod, turn, x);
    r, c :| LegalMove(mod, turn, r, c, x);
    ts := MoveReplays(mod, turn, r, c, x);
  }

  /** Typed coordinates whose replay gives a successor are accepted. */
  lemma ReplayAccepted(mod: Board, f: string, ts: seq<string>, turn: int, r: int, c: int, x: Board)
    requires OnBoard(r, c) && f == Format(Sq(r, c)) && ts != []
    requires ReplaySteps(mod, r, c, ts, |ts| > 1, turn) == Replayed(x) && x in GetSucc(mod, turn)
    ensures ValidateMove(mod, f, ts, turn) == Validation(true, "", x)
  {
    ParseFormat(Sq(r, c), f);
  }

  /** The destinations of a legal move, typed in order, replay to its board. */
  lemma MoveReplays(mod: Board, turn: int, r: int, c: int, x: Board) returns (ts: seq<string>)
    requires LegalMove(mod, turn, r, c, x)
    ensures ts != [] && ReplaySteps(mod, r, c, ts, |ts| > 1, turn) == Replayed(x)
  {
    var king := At(mod, r, c) == KingOf(turn);
    var d := Forward(turn);
    if IsStep(mod, r, c, d, turn, king, x) {
      var r2, c2 :| StepTo(mod, r, c, d, turn, king, r2, c2, x);
      StepReplaysMove(mod, r, c, d, turn, king, r2, c2, x);
      var q := Sq(r2, c2);
      ts := [Format(q)];
      ParseFormat(q, Format(q));
      assert ReplaySteps(Step(mod, r, c, r2, c2, turn), r2, c2, ts[1..], false, turn) == Replayed(x);
    } else {
      var ps := ChainReplays(mod, r, c, d, turn, king, x);
      FormatsLength(ps);
      ts := Formats(ps);
    }
  }

  lemma {:induction false} FormatsLength(ps: seq<Square>)
    requires forall i | 0 <= i < |ps| :: OnBoard(ps[i].row, ps[i].col)
    ensures |Formats(ps)| == |ps|
  {
    if ps != [] {
      FormatsLength(ps[1..]);
    }
  }
}

=== FILE: search.dfy ===
/** The alpha-beta search of checkers_ai.py: max_value, min_value and
    choose_move. Values are game_value numerators (see Evaluation); the
    program's initial bounds -100 and 100 become -Inf and Inf. The random
    tie-break `randint(0, len(best_states) - 1)` is the parameter `tie`: the
    search takes the element at `tie(best) % |best|`. */
module Search {
  import opened Pieces
  import opened Grid
  import opened Moves
  import opened Legality
  import opened Evaluation

  /** The numerator of the initial bounds 100 and -100. */
  const Inf: int := 20000

  /** Search depth used by choose_move. */
  const Depth: nat := 6

  /** The range every game value lies in (see GameValueBounded). */
  predicate InRange(v: int) {
    -1000 <= v <= 1000
  }

  /** A value that ends the game: 1 or -1 on the program's scale. */
  predicate Ends(v: int) {
    v == Win || v == -Win
  }

  /** How max_value's loop updates `alpha` and `best_states` for a child `s`
      worth `ca` that does not end the game. */
  function Widen(ca: int, alpha: int, best: seq<Board>, s: Board): (int, seq<Board>) {
    if ca > alpha then (ca, [s])
    else if ca == alpha then (alpha, best + [s])
    else (alpha, best)
  }

  /** How min_value's loop updates `beta` and `best_states`. */
  function Narrow(cb: int, beta: int, best: seq<Board>, s: Board): (int, seq<Board>) {
    if cb < beta then (cb, [s])
    else if cb == beta then (beta, best + [s])
    else (beta, best)
  }

  /** max_value(b, alpha, beta, t, d): the board to move to (or `b` itself)
      and its value, for the side to move on turn `t`. */
  function MaxValue(b: Board, alpha: int, beta: int, t: int, d: nat, tie: seq<Board> -> nat): (res: (Board, int))
    ensures res.0 == b || res.0 in GetSucc(b, t)
    ensures res.0 == b ==> res.1 == GameValue(b, t) || res.1 >= beta
    ensures res.0 != b ==> res.1 == Win || res.1 == -Win || res.1 >= alpha
    ensures alpha < beta ==> InRange(res.1)
    ensures GameValue(b, t) == Win ==> res == (b, Win)
    ensures d == 0 ==> res == (b, GameValue(b, t))
    decreases d, 1, 0
  {
    var value := GameValue(b, t);
    GameValueBounded(b, t);
    if value == Win then (b, value)
    else if d > 0 then
      GetSuccDistinct(b, t);
      MaxLoop(b, GetSucc(b, t), alpha, beta, t, d, value, [], tie)
    else (b, value)
  }

  /** The `for` loop of max_value over the successors still to visit, with
      the current `alpha` and `best_states`. */
  function MaxLoop(b: Board, succs: seq<Board>, alpha: int, beta: int, t: int, d: nat, value: int,
                   best: seq<Board>, tie: seq<Board> -> nat): (res: (Board, int))
    requires d > 0 && b !in succs && b !in best
    ensures res.0 == b || res.0 in succs || res.0 in best
    ensures res.0 == b && res.1 < beta ==> best == [] && res.1 == value
    ensures res.0 != b ==> res.1 == Win || res.1 == -Win || res.1 >= alpha
    ensures alpha < beta && (best == [] || InRange(alpha)) && InRange(value) ==> InRange(res.1)
    ensures succs == [] && best == [] ==> res == (b, value)
    ensures succs != [] && Ends(MinScore(succs[0], alpha, beta, t + 1, d - 1, tie)) ==>
              res == (succs[0], MinScore(succs[0], alpha, beta, t + 1, d - 1, tie))
    ensures succs != [] ==> var ca := MinScore(succs[0], alpha, beta, t + 1, d - 1, tie);
              alpha < beta && !Ends(ca) && ca >= beta ==> res == (b, ca)
    decreases d, 0, |succs|
  {
    if succs == [] then
      if best == [] then (b, value) else (best[tie(best) % |best|], alpha)
    else
      var s := succs[0];
      var ca := MinScore(s, alpha, beta, t + 1, d - 1, tie);
      if ca == Win || ca == -Win then (s, ca)
      else
        var (alpha', best') := Widen(ca, alpha, best, s);
        if alpha' >= beta then (b, alpha')
        else MaxLoop(b, succs[1..], alpha', beta, t, d, value, best', tie)
  }

  /** min_value(b, alpha, beta, t, d): the mirror image of max_value for the
      opponent's turns; it evaluates `b` from the side to move on turn `t`. */
  function MinValue(b: Board, alpha: int, beta: int, t: int, d: nat, tie: seq<Board> -> nat): (res: (Board, int))
    ensures res.0 == b || res.0 in GetSucc(b, t)
    ensures res.0 == b ==> res.1 == GameValue(b, t) || res.1 <= alpha
    ensures res.0 != b ==> res.1 == Win || res.1 == -Win || res.1 <= beta
    ensures alpha < beta ==> InRange(res.1)
    ensures GameValue(b, t) == -Win ==> res == (b, -Win)
    ensures d == 0 ==> res == (b, GameValue(b, t))
    decreases d, 1, 0
  {
    var value := GameValue(b, t);
    GameValueBounded(b, t);
    if value == -Win then (b, value)
    else if d > 0 then
      GetSuccDistinct(b, t);
      MinLoop(b, GetSucc(b, t), alpha, beta, t, d, value, [], tie)
    else (b, value)
  }

  /** The `for` loop of min_value, with the current `beta` and `best_states`. */
  function MinLoop(b: Board, succs: seq<Board>, alpha: int, beta: int, t: int, d: nat, value: int,
                   best: seq<Board>, tie: seq<Board> -> nat): (res: (Board, int))
    requires d > 0 && b !in succs && b !in best
    ensures res.0 == b || res.0 in succs || res.0 in best
    ensures res.0 == b && res.1 > alpha ==> best == [] && res.1 == value
    ensures res.0 != b ==> res.1 == Win || res.1 == -Win || res.1 <= beta
    ensures alpha < beta && (best == [] || InRange(beta)) && InRange(value) ==> InRange(res.1)
    ensures succs == [] && best == [] ==> res == (b, value)
    ensures succs != [] && Ends(MaxScore(succs[0], alpha, beta, t + 1, d - 1, tie)) ==>
              res == (succs[0], MaxScore(succs[0], alpha, beta, t + 1, d - 1, tie))
    ensures succs != [] ==> var cb := MaxScore(succs[0], alpha, beta, t + 1, d - 1, tie);
              alpha < beta && !Ends(cb) && cb <= alpha ==> res == (b, cb)
    decreases d, 0, |succs|
  {
    if succs == [] then
      if best == [] then (b, value) else (best[tie(best) % |best|], beta)
    else
      var s := succs[0];
      var cb := MaxScore(s, alpha, beta, t + 1, d - 1, tie);
      if cb == Win || cb == -Win then (s, cb)
      else
        var (beta', best') := Narrow(cb, beta, best, s);
        if alpha >= beta' then (b, beta')
        else MinLoop(b, succs[1..], alpha, beta', t, d, value, best', tie)
  }

  /** The value max_value reports for a child in min_value's loop; only its
      range matters to the loop. */
  function MaxScore(b: Board, alpha: int, beta: int, t: int, d: nat, tie: seq<Board> -> nat): (v: int)
    ensures alpha < beta ==> InRange(v)
    decreases d, 2, 0
  {
    MaxValue(b, alpha, beta, t, d, tie).1
  }

  /** The value min_value reports for a child in max_value's loop. */
  function MinScore(b: Board, alpha: int, beta: int, t: int, d: nat, tie: seq<Board> -> nat): (v: int)
    ensures alpha < beta ==> InRange(v)
    decreases d, 2, 0
  {
    MinValue(b, alpha, beta, t, d, tie).1
  }

  /** The static values of `succs` for the side to move on turn `t`: what
      max_value reports for each of them at depth 0. */
  function Leaves(succs: seq<Board>, t: int): (vals: seq<int>)
    ensures |vals| == |succs|
  {
    if succs == [] then [] else [GameValue(succs[0], t)] + Leaves(succs[1..], t)
  }

  lemma {:induction false} LeavesAt(succs: seq<Board>, t: int)
    ensures forall i | 0 <= i < |succs| :: Leaves(succs, t)[i] == GameValue(succs[i], t)
  {
    if succs != [] {
      LeavesAt(succs[1..], t);
      assert forall i | 1 <= i < |succs| :: succs[i] == succs[1..][i - 1];
    }
  }

  /** At depth 0 max_value reports the static value, whatever the window. */
  lemma LeafScore(s: Board, alpha: int, beta: int, t: int, tie: seq<Board> -> nat)
    ensures MaxScore(s, alpha, beta, t, 0, tie) == GameValue(s, t)
  {
  }

  /** min_value's loop with each child's value given in `vals` rather than
      searched: the shape the loop takes one ply above the leaves. */
  function MinScan(b: Board, succs: seq<Board>, vals: seq<int>, alpha: int, beta: int, value: int,
                   best: seq<Board>, tie: seq<Board> -> nat): (Board, int)
    requires |vals| == |succs|
    decreases |succs|
  {
    if succs == [] then
      if best == [] then (b, value) else (best[tie(best) % |best|], beta)
    else
      var cb := vals[0];
      if cb == Win || cb == -Win then (succs[0], cb)
      else
        var (beta', best') := Narrow(cb, beta, best, succs[0]);
        if alpha >= beta' then (b, beta')
        else MinScan(b, succs[1..], vals[1..], alpha, beta', value, best', tie)
  }

  /** Whether a child worth `v` stops min_value's loop at once when the
      window's lower bound is `alpha`: it ends the game, or it cuts off. */
  predicate StopsMin(v: int, alpha: int) {
    Ends(v) || v <= alpha
  }

  /** What the scan answers, stated without running it. The first child that
      ends the game or is worth at most alpha decides: a child that ends the
      game is answered with its value, and otherwise the board itself is
      answered with that child's value. Failing that, if some child is worth
      at most beta or a tie is already held, a child of least value is
      answered (or a held tie, worth beta). When every child is worth more
      than beta and no tie is held, the board's own static value is
      answered. */
  lemma {:induction false} MinScanSpec(b: Board, succs: seq<Board>, vals: seq<int>, alpha: int, beta: int,
                                       value: int, best: seq<Board>, tie: seq<Board> -> nat)
    requires |vals| == |succs| && alpha < beta
    ensures var r := MinScan(b, succs, vals, alpha, beta, value, best, tie);
            forall i | 0 <= i < |vals| && StopsMin(vals[i], alpha) && (forall j | 0 <= j < i :: !StopsMin(vals[j], alpha)) ::
              r == if Ends(vals[i]) then (succs[i], vals[i]) else (b, vals[i])
    ensures var r := MinScan(b, succs, vals, alpha, beta, value, best, tie);
            (forall i | 0 <= i < |vals| :: !StopsMin(vals[i], alpha)) &&
            (best != [] || exists i | 0 <= i < |vals| :: vals[i] <= beta) ==>
              r.1 <= beta && (forall i | 0 <= i < |vals| :: r.1 <= vals[i]) &&
              ((r.0 in best && r.1 == beta) || exists i | 0 <= i < |vals| :: r.0 == succs[i] && r.1 == vals[i])
    ensures best == [] && (forall i | 0 <= i < |vals| :: !Ends(vals[i]) && vals[i] > beta) ==>
              MinScan(b, succs, vals, alpha, beta, value, best, tie) == (b, value)
    decreases |succs|
  {
    if succs != [] && !StopsMin(vals[0], alpha) {
      var (beta', best') := Narrow(vals[0], beta, best, succs[0]);
      MinScanSpec(b, succs[1..], vals[1..], alpha, beta', value, best', tie);
      assert forall i | 1 <= i < |vals| :: vals[i] == vals[1..][i - 1] && succs[i] == succs[1..][i - 1];
    }
  }

  /** MinScanSpec for a loop entered with no tie held, about an answer `r`
      named apart from the scan that computes it. */
  lemma MinScanAnswer(b: Board, succs: seq<Board>, vals: seq<int>, alpha: int, beta: int, value: int,
                      tie: seq<Board> -> nat, r: (Board, int))
    requires |vals| == |succs| && alpha < beta && r == MinScan(b, succs, vals, alpha, beta, value, [], tie)
    ensures forall i | 0 <= i < |vals| && StopsMin(vals[i], alpha) && (forall j | 0 <= j < i :: !StopsMin(vals[j], alpha)) ::
              r == if Ends(vals[i]) then (succs[i], vals[i]) else (b, vals[i])
    ensures (forall i | 0 <= i < |vals| :: !StopsMin(vals[i], alpha)) && (exists i | 0 <= i < |vals| :: vals[i] <= beta) ==>
              r.1 <= beta && (forall i | 0 <= i < |vals| :: r.1 <= vals[i]) &&
              exists i | 0 <= i < |vals| :: r.0 == succs[i] && r.1 == vals[i]
    ensures (forall i | 0 <= i < |vals| :: !Ends(vals[i]) && vals[i] > beta) ==> r == (b, value)
  {
    MinScanSpec(b, succs, vals, alpha, beta, value, [], tie);
  }

  /** One step of the scan past a child that neither ends the game nor cuts
      the loop off. */
  lemma MinScanStep(b: Board, succs: seq<Board>, vals: seq<int>, alpha: int, beta: int,
                    value: int, best: seq<Board>, tie: seq<Board> -> nat)
    requires |vals| == |succs| && succs != [] && vals[0] != Win && vals[0] != -Win
    requires alpha < Narrow(vals[0], beta, best, succs[0]).0
    ensures var (beta', best') := Narrow(vals[0], beta, best, succs[0]);
              MinScan(b, succs, vals, alpha, beta, value, best, tie)
              == MinScan(b, succs[1..], vals[1..], alpha, beta', value, best', tie)
  {
  }

  /** A candidate of the final value `v` survives one step of the scan: it is
      still held as a tie or still ahead. */
  lemma TieCarried(succs: seq<Board>, vals: seq<int>, beta: int, best: seq<Board>, s: Board, v: int)
    requires |vals| == |succs| && succs != []
    requires v <= Narrow(vals[0], beta, best, succs[0]).0
    requires (s in best && beta == v) || exists i | 0 <= i < |vals| :: s == succs[i] && vals[i] == v
    ensures var (beta', best') := Narrow(vals[0], beta, best, succs[0]);
            (s in best' && beta' == v) || exists i | 0 <= i < |vals| - 1 :: s == succs[1..][i] && vals[1..][i] == v
  {
    if !(s in best && beta == v) {
      var i :| 0 <= i < |vals| && s == succs[i] && vals[i] == v;
      if i > 0 {
        assert s == succs[1..][i - 1] && vals[1..][i - 1] == v;
      }
    }
  }

  /** Every child of least value that the scan can answer is answered by some
      tie-break: the random choice ranges over all of them. */
  lemma {:induction false} MinScanTies(b: Board, succs: seq<Board>, vals: seq<int>, alpha: int, beta: int,
                                       value: int, best: seq<Board>, tie: seq<Board> -> nat, s: Board)
      returns (tie': seq<Board> -> nat)
    requires |vals| == |succs| && alpha < beta
    requires forall i | 0 <= i < |vals| :: vals[i] != Win && vals[i] != -Win && vals[i] > alpha
    requires best != [] || exists i | 0 <= i < |vals| :: vals[i] <= beta
    requires (s in best && beta == MinScan(b, succs, vals, alpha, beta, value, best, tie).1)
             || exists i | 0 <= i < |vals| :: s == succs[i] && vals[i] == MinScan(b, succs, vals, alpha, beta, value, best, tie).1
    ensures MinScan(b, succs, vals, alpha, beta, value, best, tie')
         == (s, MinScan(b, succs, vals, alpha, beta, value, best, tie).1)
    decreases |succs|, 1
  {
    if succs == [] {
      tie' := TieHeld(b, alpha, beta, value, best, tie, s);
    } else {
      tie' := MinScanTiesNext(b, succs, vals, alpha, beta, value, best, tie, s);
    }
  }

  /** With no child left, the tie-break that points at `s` answers it. */
  lemma TieHeld(b: Board, alpha: int, beta: int, value: int, best: seq<Board>, tie: seq<Board> -> nat, s: Board)
      returns (tie': seq<Board> -> nat)
    requires s in best
    ensures MinScan(b, [], [], alpha, beta, value, best, tie') == (s, beta)
  {
    var k :| 0 <= k < |best| && best[k] == s;
    tie' := _ => k;
  }

  /** The step case of MinScanTies. */
  lemma {:induction false} MinScanTiesNext(b: Board, succs: seq<Board>, vals: seq<int>, alpha: int, beta: int,
                                           value: int, best: seq<Board>, tie: seq<Board> -> nat, s: Board)
      returns (tie': seq<Board> -> nat)
    requires |vals| == |succs| && succs != [] && alpha < beta
    requires forall i | 0 <= i < |vals| :: vals[i] != Win && vals[i] != -Win && vals[i] > alpha
    requires best != [] || exists i | 0 <= i < |vals| :: vals[i] <= beta
    requires (s in best && beta == MinScan(b, succs, vals, alpha, beta, value, best, tie).1)
             || exists i | 0 <= i < |vals| :: s == succs[i] && vals[i] == MinScan(b, succs, vals, alpha, beta, value, best, tie).1
    ensures MinScan(b, succs, vals, alpha, beta, value, best, tie')
         == (s, MinScan(b, succs, vals, alpha, beta, value, best, tie).1)
    decreases |succs|, 0
  {
    var (beta', best') := Narrow(vals[0], beta, best, succs[0]);
    var v := MinScan(b, succs, vals, alpha, beta, value, best, tie).1;
    MinScanStep(b, succs, vals, alpha, beta, value, best, tie);
    assert best' != [] || exists i | 0 <= i < |vals| - 1 :: vals[1..][i] <= beta' by {
      if best' == [] {
        var i :| 0 <= i < |vals| && vals[i] <= beta;
        assert i != 0 && vals[1..][i - 1] <= beta';
      }
    }
    assert forall i | 0 <= i < |vals| - 1 :: vals[1..][i] != Win && vals[1..][i] != -Win && vals[1..][i] > alpha by {
      forall i | 0 <= i < |vals| - 1 ensures vals[1..][i] == vals[i + 1] { }
    }
    MinScanSpec(b, succs[1..], vals[1..], alpha, beta', value, best', tie);
    TieCarried(succs, vals, beta, best, s, v);
    tie' := MinScanTies(b, succs[1..], vals[1..], alpha, beta', value, best', tie, s);
    MinScanStep(b, succs, vals, alpha, beta, value, best, tie');
  }

  /** One ply above the leaves, min_value's loop is the scan of the
      children's static values. */
  lemma {:induction false} MinLoopScan(b: Board, succs: seq<Board>, alpha: int, beta: int, t: int, value: int,
                                       best: seq<Board>, tie: seq<Board> -> nat)
    requires b !in succs && b !in best
    ensures MinLoop(b, succs, alpha, beta, t, 1, value, best, tie)
         == MinScan(b, succs, Leaves(succs, t + 1), alpha, beta, value, best, tie)
    decreases |succs|
  {
    if succs != [] {
      var s := succs[0];
      LeafScore(s, alpha, beta, t + 1, tie);
      var cb := GameValue(s, t + 1);
      var (beta', best') := Narrow(cb, beta, best, s);
      var vals := Leaves(succs, t + 1);
      assert vals[0] == cb && vals[1..] == Leaves(succs[1..], t + 1);
      assert MinLoop(b, succs, alpha, beta, t, 1, value, best, tie)
          == if cb == Win || cb == -Win then (s, cb)
             else if alpha >= beta' then (b, beta')
             else MinLoop(b, succs[1..], alpha, beta', t, 1, value, best', tie);
      if cb != Win && cb != -Win && alpha < beta' {
        MinLoopScan(b, succs[1..], alpha, beta', t, value, best', tie);
      }
    }
  }

  /** min_value one ply above the leaves, as choose_move's search reaches it
      at its fifth ply. Each child is worth its static value for the side to
      move after it. The first child that ends the game or is worth at most
      alpha decides: a child that ends the game is answered with its value,
      and otherwise the board is answered with that child's value. */
  lemma MinValueOnePly(b: Board, alpha: int, beta: int, t: int, tie: seq<Board> -> nat)
    requires alpha < beta && GameValue(b, t) != -Win
    ensures var S := GetSucc(b, t); var V := Leaves(S, t + 1); var r := MinValue(b, alpha, beta, t, 1, tie);
            forall i | 0 <= i < |V| && StopsMin(V[i], alpha) && (forall j | 0 <= j < i :: !StopsMin(V[j], alpha)) ::
              r == if Ends(V[i]) then (S[i], V[i]) else (b, V[i])
  {
    var S := GetSucc(b, t);
    MinValueScan(b, alpha, beta, t, tie);
    MinScanAnswer(b, S, Leaves(S, t + 1), alpha, beta, GameValue(b, t), tie, MinValue(b, alpha, beta, t, 1, tie));
  }

  /** In the same setting, when no child stops the loop at once and some
      child is worth at most beta, a child of least value is answered with
      that value. */
  lemma MinValueOnePlyBest(b: Board, alpha: int, beta: int, t: int, tie: seq<Board> -> nat)
    requires alpha < beta && GameValue(b, t) != -Win
    ensures var S := GetSucc(b, t); var V := Leaves(S, t + 1); var r := MinValue(b, alpha, beta, t, 1, tie);
            (forall i | 0 <= i < |V| :: !StopsMin(V[i], alpha)) && (exists i | 0 <= i < |V| :: V[i] <= beta) ==>
              r.1 <= beta && (forall i | 0 <= i < |V| :: r.1 <= V[i]) &&
              exists i | 0 <= i < |V| :: r.0 == S[i] && r.1 == V[i]
  {
    var S := GetSucc(b, t);
    MinValueScan(b, alpha, beta, t, tie);
    MinScanAnswer(b, S, Leaves(S, t + 1), alpha, beta, GameValue(b, t), tie, MinValue(b, alpha, beta, t, 1, tie));
  }

  /** In the same setting, when every child is worth more than beta without
      ending the game, the board's own static value is answered, not beta. */
  lemma MinValueOnePlyStatic(b: Board, alpha: int, beta: int, t: int, tie: seq<Board> -> nat)
    requires alpha < beta && GameValue(b, t) != -Win
    ensures var S := GetSucc(b, t); var V := Leaves(S, t + 1);
            (forall i | 0 <= i < |V| :: !Ends(V[i]) && V[i] > beta) ==>
              MinValue(b, alpha, beta, t, 1, tie) == (b, GameValue(b, t))
  {
    var S := GetSucc(b, t);
    MinValueScan(b, alpha, beta, t, tie);
    MinScanAnswer(b, S, Leaves(S, t + 1), alpha, beta, GameValue(b, t), tie, MinValue(b, alpha, beta, t, 1, tie));
  }

  /** In the same setting, when no child is worth at most alpha, every child
      of least value that is worth at most beta is answered by some
      tie-break. */
  lemma MinValueTies(b: Board, alpha: int, beta: int, t: int, tie: seq<Board> -> nat, k: int)
      returns (tie': seq<Board> -> nat)
    requires alpha < beta && GameValue(b, t) != -Win
    requires var V := Leaves(GetSucc(b, t), t + 1);
             0 <= k < |V| && V[k] <= beta && forall i | 0 <= i < |V| :: !Ends(V[i]) && alpha < V[i] && V[k] <= V[i]
    ensures MinValue(b, alpha, beta, t, 1, tie') == (GetSucc(b, t)[k], Leaves(GetSucc(b, t), t + 1)[k])
  {
    var S := GetSucc(b, t);
    tie' := MinScanLeast(b, S, Leaves(S, t + 1), alpha, beta, GameValue(b, t), tie, k);
    MinValueScan(b, alpha, beta, t, tie');
  }

  /** MinValueTies at the level of the scan: a least value above alpha and at
      most beta is answered, with its child, by some tie-break. */
  lemma MinScanLeast(b: Board, succs: seq<Board>, vals: seq<int>, alpha: int, beta: int, value: int,
                     tie: seq<Board> -> nat, k: int) returns (tie': seq<Board> -> nat)
    requires |vals| == |succs| && alpha < beta
    requires forall i | 0 <= i < |vals| :: vals[i] != Win && vals[i] != -Win
    requires 0 <= k < |vals| && vals[k] <= beta && forall i | 0 <= i < |vals| :: alpha < vals[i] && vals[k] <= vals[i]
    ensures MinScan(b, succs, vals, alpha, beta, value, [], tie') == (succs[k], vals[k])
  {
    MinScanSpec(b, succs, vals, alpha, beta, value, [], tie);
    assert MinScan(b, succs, vals, alpha, beta, value, [], tie).1 == vals[k];
    tie' := MinScanTies(b, succs, vals, alpha, beta, value, [], tie, succs[k]);
  }

  /** One ply above the leaves, min_value is the scan of its children's
      static values. */
  lemma MinValueScan(b: Board, alpha: int, beta: int, t: int, tie: seq<Board> -> nat)
    requires GameValue(b, t) != -Win
    ensures b !in GetSucc(b, t)
    ensures MinValue(b, alpha, beta, t, 1, tie)
            == MinScan(b, GetSucc(b, t), Leaves(GetSucc(b, t), t + 1), alpha, beta, GameValue(b, t), [], tie)
  {
    var S := GetSucc(b, t);
    GetSuccDistinct(b, t);
    assert MinValue(b, alpha, beta, t, 1, tie) == MinLoop(b, S, alpha, beta, t, 1, GameValue(b, t), [], tie);
    MinLoopScan(b, S, alpha, beta, t, GameValue(b, t), [], tie);
  }

  // ---------------------------------------------------------------------
  // max_value one ply above the leaves

  /** max_value's loop with each child's value given in `vals`. */
  function MaxScan(b: Board, succs: seq<Board>, vals: seq<int>, alpha: int, beta: int, value: int,
                   best: seq<Board>, tie: seq<Board> -> nat): (Board, int)
    requires |vals| == |succs|
    decreases |succs|
  {
    if succs == [] then
      if best == [] then (b, value) else (best[tie(best) % |best|], alpha)
    else
      var ca := vals[0];
      if ca == Win || ca == -Win then (succs[0], ca)
      else
        var (alpha', best') := Widen(ca, alpha, best, succs[0]);
        if alpha' >= beta then (b, alpha')
        else MaxScan(b, succs[1..], vals[1..], alpha', beta, value, best', tie)
  }

  /** Whether a child worth `v` stops max_value's loop at once when the
      window's upper bound is `beta`: it ends the game, or it prunes. */
  predicate StopsMax(v: int, beta: int) {
    Ends(v) || v >= beta
  }

  /** What max_value's scan answers, the mirror image of MinScanSpec. The
      first child that ends the game or is worth at least beta decides: a
      child that ends the game is answered with its value, and otherwise the
      board is answered with that child's value. Failing that, if some child
      is worth at least alpha or a tie is already held, a child of greatest
      value is answered (or a held tie, worth alpha). When every child is
      worth less than alpha and no tie is held, the board's own static value
      is answered. */
  lemma {:induction false} MaxScanSpec(b: Board, succs: seq<Board>, vals: seq<int>, alpha: int, beta: int,
                                       value: int, best: seq<Board>, tie: seq<Board> -> nat)
    requires |vals| == |succs| && alpha < beta
    ensures var r := MaxScan(b, succs, vals, alpha, beta, value, best, tie);
            forall i | 0 <= i < |vals| && StopsMax(vals[i], beta) && (forall j | 0 <= j < i :: !StopsMax(vals[j], beta)) ::
              r == if Ends(vals[i]) then (succs[i], vals[i]) else (b, vals[i])
    ensures var r := MaxScan(b, succs, vals, alpha, beta, value, best, tie);
            (forall i | 0 <= i < |vals| :: !StopsMax(vals[i], beta)) &&
            (best != [] || exists i | 0 <= i < |vals| :: vals[i] >= alpha) ==>
              r.1 >= alpha && (forall i | 0 <= i < |vals| :: r.1 >= vals[i]) &&
              ((r.0 in best && r.1 == alpha) || exists i | 0 <= i < |vals| :: r.0 == succs[i] && r.1 == vals[i])
    ensures best == [] && (forall i | 0 <= i < |vals| :: !Ends(vals[i]) && vals[i] < alpha) ==>
              MaxScan(b, succs, vals, alpha, beta, value, best, tie) == (b, value)
    decreases |succs|
  {
    if succs != [] && !StopsMax(vals[0], beta) {
      var (alpha', best') := Widen(vals[0], alpha, best, succs[0]);
      MaxScanSpec(b, succs[1..], vals[1..], alpha', beta, value, best', tie);
      assert forall i | 1 <= i < |vals| :: vals[i] == vals[1..][i - 1] && succs[i] == succs[1..][i - 1];
    }
  }

  /** MaxScanSpec for a loop entered with no tie held, about an answer `r`
      named apart from the scan that computes it. */
  lemma MaxScanAnswer(b: Board, succs: seq<Board>, vals: seq<int>, alpha: int, beta: int, value: int,
                      tie: seq<Board> -> nat, r: (Board, int))
    requires |vals| == |succs| && alpha < beta && r == MaxScan(b, succs, vals, alpha, beta, value, [], tie)
    ensures forall i | 0 <= i < |vals| && StopsMax(vals[i], beta) && (forall j | 0 <= j < i :: !StopsMax(vals[j], beta)) ::
              r == if Ends(vals[i]) then (succs[i], vals[i]) else (b, vals[i])
    ensures (forall i | 0 <= i < |vals| :: !StopsMax(vals[i], beta)) && (exists i | 0 <= i < |vals| :: vals[i] >= alpha) ==>
              r.1 >= alpha && (forall i | 0 <= i < |vals| :: r.1 >= vals[i]) &&
              exists i | 0 <= i < |vals| :: r.0 == succs[i] && r.1 == vals[i]
    ensures (forall i | 0 <= i < |vals| :: !Ends(vals[i]) && vals[i] < alpha) ==> r == (b, value)
  {
    MaxScanSpec(b, succs, vals, alpha, beta, value, [], tie);
  }

  /** The values of `vals` with their signs flipped. */
  function Negated(vals: seq<int>): (n: seq<int>)
    ensures |n| == |vals|
  {
    if vals == [] then [] else [-vals[0]] + Negated(vals[1..])
  }

  lemma {:induction false} NegatedAt(vals: seq<int>)
    ensures forall i | 0 <= i < |vals| :: Negated(vals)[i] == -vals[i]
  {
    if vals != [] {
      NegatedAt(vals[1..]);
      assert forall i | 1 <= i < |vals| :: vals[i] == vals[1..][i - 1];
    }
  }

  /** An answer of min_value's scan read back on max_value's side: the same
      board with the value's sign flipped. */
  function Flipped(r: (Board, int)): (Board, int) {
    (r.0, -r.1)
  }

  /** max_value's scan is min_value's scan on the negated values with the
      window flipped: raising alpha to `ca` and clearing best_states is
      lowering beta to `-ca`. */
  lemma {:induction false} MaxScanDual(b: Board, succs: seq<Board>, vals: seq<int>, alpha: int, beta: int,
                                       value: int, best: seq<Board>, tie: seq<Board> -> nat)
    requires |vals| == |succs|
    ensures MaxScan(b, succs, vals, alpha, beta, value, best, tie)
            == Flipped(MinScan(b, succs, Negated(vals), -beta, -alpha, -value, best, tie))
    decreases |succs|
  {
    if succs != [] {
      var (alpha', best') := Widen(vals[0], alpha, best, succs[0]);
      assert Negated(vals)[0] == -vals[0] && Negated(vals)[1..] == Negated(vals[1..]);
      assert Narrow(-vals[0], -alpha, best, succs[0]) == (-alpha', best');
      MaxScanDual(b, succs[1..], vals[1..], alpha', beta, value, best', tie);
    }
  }

  /** The mirror image of MinScanLeast: a greatest value at least alpha and
      below beta is answered, with its child, by some tie-break. */
  lemma MaxScanGreatest(b: Board, succs: seq<Board>, vals: seq<int>, alpha: int, beta: int, value: int,
                        tie: seq<Board> -> nat, k: int) returns (tie': seq<Board> -> nat)
    requires |vals| == |succs| && alpha < beta
    requires forall i | 0 <= i < |vals| :: vals[i] != Win && vals[i] != -Win
    requires 0 <= k < |vals| && vals[k] >= alpha && forall i | 0 <= i < |vals| :: vals[i] < beta && vals[i] <= vals[k]
    ensures MaxScan(b, succs, vals, alpha, beta, value, [], tie') == (succs[k], vals[k])
  {
    NegatedAt(vals);
    tie' := MinScanLeast(b, succs, Negated(vals), -beta, -alpha, -value, tie, k);
    MaxScanDual(b, succs, vals, alpha, beta, value, [], tie');
  }

  /** One ply above the leaves, max_value's loop is the scan of the
      children's static values. */
  lemma {:induction false} MaxLoopScan(b: Board, succs: seq<Board>, alpha: int, beta: int, t: int, value: int,
                                       best: seq<Board>, tie: seq<Board> -> nat)
    requires b !in succs && b !in best
    ensures MaxLoop(b, succs, alpha, beta, t, 1, value, best, tie)
         == MaxScan(b, succs, Leaves(succs, t + 1), alpha, beta, value, best, tie)
    decreases |succs|
  {
    if succs != [] {
      var s := succs[0];
      var ca := GameValue(s, t + 1);
      assert MinScore(s, alpha, beta, t + 1, 0, tie) == ca;
      var (alpha', best') := Widen(ca, alpha, best, s);
      var vals := Leaves(succs, t + 1);
      assert vals[0] == ca && vals[1..] == Leaves(succs[1..], t + 1);
      assert MaxLoop(b, succs, alpha, beta, t, 1, value, best, tie)
          == if ca == Win || ca == -Win then (s, ca)
             else if alpha' >= beta then (b, alpha')
             else MaxLoop(b, succs[1..], alpha', beta, t, 1, value, best', tie);
      if ca != Win && ca != -Win && alpha' < beta {
        MaxLoopScan(b, succs[1..], alpha', beta, t, value, best', tie);
      }
    }
  }

  /** One ply above the leaves, max_value is the scan of its children's
      static values. */
  lemma MaxValueScan(b: Board, alpha: int, beta: int, t: int, tie: seq<Board> -> nat)
    requires GameValue(b, t) != Win
    ensures b !in GetSucc(b, t)
    ensures MaxValue(b, alpha, beta, t, 1, tie)
            == MaxScan(b, GetSucc(b, t), Leaves(GetSucc(b, t), t + 1), alpha, beta, GameValue(b, t), [], tie)
  {
    var S := GetSucc(b, t);
    GetSuccDistinct(b, t);
    assert MaxValue(b, alpha, beta, t, 1, tie) == MaxLoop(b, S, alpha, beta, t, 1, GameValue(b, t), [], tie);
    MaxLoopScan(b, S, alpha, beta, t, GameValue(b, t), [], tie);
  }

  /** max_value one ply above the leaves. Each child is worth its static
      value for the side to move after it, taken as it is (the program does
      not negate it). The first child that ends the game or is worth at
      least beta decides: a child that ends the game is answered with its
      value, and otherwise the board is answered with that child's value. */
  lemma MaxValueOnePly(b: Board, alpha: int, beta: int, t: int, tie: seq<Board> -> nat)
    requires alpha < beta && GameValue(b, t) != Win
    ensures var S := GetSucc(b, t); var V := Leaves(S, t + 1); var r := MaxValue(b, alpha, beta, t, 1, tie);
            forall i | 0 <= i < |V| && StopsMax(V[i], beta) && (forall j | 0 <= j < i :: !StopsMax(V[j], beta)) ::
              r == if Ends(V[i]) then (S[i], V[i]) else (b, V[i])
  {
    var S := GetSucc(b, t);
    MaxValueScan(b, alpha, beta, t, tie);
    MaxScanAnswer(b, S, Leaves(S, t + 1), alpha, beta, GameValue(b, t), tie, MaxValue(b, alpha, beta, t, 1, tie));
  }

  /** In the same setting, when no child stops the loop at once and some
      child is worth at least alpha, a child of greatest value is answered
      with that value: best_states holds only the children worth the current
      alpha. */
  lemma MaxValueOnePlyBest(b: Board, alpha: int, beta: int, t: int, tie: seq<Board> -> nat)
    requires alpha < beta && GameValue(b, t) != Win
    ensures var S := GetSucc(b, t); var V := Leaves(S, t + 1); var r := MaxValue(b, alpha, beta, t, 1, tie);
            (forall i | 0 <= i < |V| :: !StopsMax(V[i], beta)) && (exists i | 0 <= i < |V| :: V[i] >= alpha) ==>
              r.1 >= alpha && (forall i | 0 <= i < |V| :: r.1 >= V[i]) &&
              exists i | 0 <= i < |V| :: r.0 == S[i] && r.1 == V[i]
  {
    var S := GetSucc(b, t);
    MaxValueScan(b, alpha, beta, t, tie);
    MaxScanAnswer(b, S, Leaves(S, t + 1), alpha, beta, GameValue(b, t), tie, MaxValue(b, alpha, beta, t, 1, tie));
  }

  /** In the same setting, when every child is worth less than alpha without
      ending the game, the board's own static value is answered, not alpha. */
  lemma MaxValueOnePlyStatic(b: Board, alpha: int, beta: int, t: int, tie: seq<Board> -> nat)
    requires alpha < beta && GameValue(b, t) != Win
    ensures var S := GetSucc(b, t); var V := Leaves(S, t + 1);
            (forall i | 0 <= i < |V| :: !Ends(V[i]) && V[i] < alpha) ==>
              MaxValue(b, alpha, beta, t, 1, tie) == (b, GameValue(b, t))
  {
    var S := GetSucc(b, t);
    MaxValueScan(b, alpha, beta, t, tie);
    MaxScanAnswer(b, S, Leaves(S, t + 1), alpha, beta, GameValue(b, t), tie, MaxValue(b, alpha, beta, t, 1, tie));
  }

  /** In the same setting, when no child ends the game or is worth at least
      beta, every child of greatest value that is worth at least alpha is
      answered by some tie-break. */
  lemma MaxValueTies(b: Board, alpha: int, beta: int, t: int, tie: seq<Board> -> nat, k: int)
      returns (tie': seq<Board> -> nat)
    requires alpha < beta && GameValue(b, t) != Win
    requires var V := Leaves(GetSucc(b, t), t + 1);
             0 <= k < |V| && V[k] >= alpha && forall i | 0 <= i < |V| :: !Ends(V[i]) && V[i] < beta && V[i] <= V[k]
    ensures MaxValue(b, alpha, beta, t, 1, tie') == (GetSucc(b, t)[k], Leaves(GetSucc(b, t), t + 1)[k])
  {
    var S := GetSucc(b, t);
    tie' := MaxScanGreatest(b, S, Leaves(S, t + 1), alpha, beta, GameValue(b, t), tie, k);
    MaxValueScan(b, alpha, beta, t, tie');
  }

  /** choose_move: the board the program plays on turn `t`. */
  function ChooseMove(b: Board, t: int, tie: seq<Board> -> nat): Board {
    MaxValue(b, -Inf, Inf, t, Depth, tie).0
  }

  /** With the initial bounds, max_value's loop never prunes and always has a
      best state once one child is seen, so it answers a child. */
  lemma {:induction false} MaxLoopPicks(b: Board, succs: seq<Board>, alpha: int, beta: int, t: int, d: nat,
                                        value: int, best: seq<Board>, tie: seq<Board> -> nat)
    requires d > 0 && b !in succs && b !in best
    requires alpha < beta && 1000 < beta
    requires alpha < -1000 || best != []
    requires succs != [] || best != []
    ensures MaxLoop(b, succs, alpha, beta, t, d, value, best, tie).0 in succs
            || MaxLoop(b, succs, alpha, beta, t, d, value, best, tie).0 in best
    decreases |succs|
  {
    if succs != [] {
      var s := succs[0];
      var ca := MinScore(s, alpha, beta, t + 1, d - 1, tie);
      if !Ends(ca) {
        var (alpha', best') := Widen(ca, alpha, best, s);
        assert InRange(ca) && alpha' < beta && best' != [];
        assert MaxLoop(b, succs, alpha, beta, t, d, value, best, tie)
            == MaxLoop(b, succs[1..], alpha', beta, t, d, value, best', tie);
        MaxLoopPicks(b, succs[1..], alpha', beta, t, d, value, best', tie);
      }
    }
  }

  /** choose_move answers one of the successors whenever there is one and the
      game is not already won. */
  lemma ChooseMoveIsSuccessor(b: Board, t: int, tie: seq<Board> -> nat)
    requires GetSucc(b, t) != [] && GameValue(b, t) != Win
    ensures ChooseMove(b, t, tie) in GetSucc(b, t)
    ensures IsSuccessor(b, t, ChooseMove(b, t, tie))
  {
    GetSuccDistinct(b, t);
    MaxLoopPicks(b, GetSucc(b, t), -Inf, Inf, t, Depth, GameValue(b, t), [], tie);
    GetSuccSpec(b, t, ChooseMove(b, t, tie));
  }
}
